=== FILE: README.md ===
# sopratestar core, modelled in Dafny

A functional model of the decision logic inside the sopratestar browser
driving game, with proofs of what that logic promises. The model covers:

- **Camera mode state machine.** There are three mutually exclusive camera
  modes. Each mode's optional fields exist only while that mode is active.
  The model proves that this invariant is kept across mode switches, mouse
  and key handlers, and per-frame updates.
- **Vehicle control law.** Each frame turns the driver's controls and the
  body's current motion into throttle, brake, steering-torque, grip and
  speed-limit commands for the physics engine. The model also covers the
  new steering angle and the wheel angles.
- **Track construction.** This is the road mesh buffer and index
  arithmetic, the barrier boxes, their colliders, the checkpoints and the
  start pose.
- **Game loop lifecycle.** The model covers start, tick and stop, which
  are driven by explicit clock readings. It also covers how the game
  wires the loop to its initialisation, update, render, pause and resume.
- **Two keyboard readers.** One is the command-code key map. The other is
  the lower-cased key-name map that yields throttle, brake and steering.
  The model also includes the global binding table and the configuration
  defaults.

Everything is immutable datatypes and pure functions over `real`/`int`,
with one looping method that builds the road mesh. The engine's float
maths is represented by the uninterpreted function fields of
`Geometry.Maths`. This covers square root, `atan2`, quaternion and Euler
rotation, `lookAt` and the yaw quaternion. Curve sampling is represented
by the fields of `Track.Curve`, its position and unit tangent at a
parameter. Where a property needs the square root to behave as one, the
lemma takes the pointwise precondition `Geometry.RootOf`.

Modules follow the source files:

- `Wrappers`: Option and Result.
- `Geometry`: `Vector3` arithmetic.
- `Globals`
- `Input`
- `InputController`
- `GameLoop`
- `Game`
- `Camera`
- `Vehicle`
- `Track`

Side effects the source performs on its collaborators are returned as
values:

- `GameLoop.Effect`: callback invocations and frame requests.
- `Game.Call`: physics, renderer and frame calls.
- `Vehicle.BodyCommand`: `addForce`, `addTorque` and `setLinvel` on the
  rigid body.

## Model

| member | source | states |
|---|---|---|
| Globals.CommandOf | src/utils/Globals.ts:5-15 | a key code is dispatched to a command exactly when that command is bound to it; an unbound code matches none |
| Globals.CommandOfCode | src/utils/Globals.ts:5-15 | dispatching a command's own code finds that command again |
| Globals.BindingTable | src/utils/Globals.ts:5-15 | the table has exactly nine commands, each listed once, and their codes are pairwise distinct |
| Globals.DefaultConfig | src/utils/Globals.ts:17-21 | default camera mode FreeCamera, field of view 90, mouse sensitivity 0.002 |
| Input.Init | src/controllers/Input.ts:7-21 | after `init` the map holds exactly the nine bound codes, all released |
| Input.KeyDown | src/controllers/Input.ts:25-27 | keydown marks the code held, adds it if unseen, and leaves every other entry alone |
| Input.KeyUp | src/controllers/Input.ts:29-31 | keyup marks the code released, adds it if unseen, and leaves every other entry alone |
| Input.IsKeyPressed | src/controllers/Input.ts:42-45 | the stored flag, false for a code never seen, and an error while the map is still undefined |
| Input.InitReleasesAll | src/controllers/Input.ts:9-19 | right after `init` every command reads as not pressed |
| Input.PressThenRelease | src/controllers/Input.ts:25-31 | a pressed key reads pressed, reads released after keyup, and no other code's reading changes |
| Input.EventsKeepBindings | src/controllers/Input.ts:25-31 | key events never remove a bound code from the map |
| Input.EventsBeforeInit | src/controllers/Input.ts:20-31 | before `init` no listener exists, so events change nothing and queries fail |
| InputController.LowerChar | src/controllers/InputController.ts:13 | an upper-case letter becomes the lower-case letter at the same place in the alphabet; every other character is left alone |
| InputController.Lower | src/controllers/InputController.ts:13 | same length; each upper-case letter becomes the lower-case letter at the same place in the alphabet; other characters unchanged; no upper-case letter is left |
| InputController.LowerIdempotent | src/controllers/InputController.ts:13 | lower-casing twice is lower-casing once |
| InputController.KeyDown | src/controllers/InputController.ts:12-14 | the lower-cased name becomes held; every other name keeps its state |
| InputController.KeyUp | src/controllers/InputController.ts:16-18 | the lower-cased name becomes released; every other name keeps its state |
| InputController.GetInput | src/controllers/InputController.ts:21-34 | throttle 1 iff w or arrowup is held, brake 1 iff s or arrowdown is held, steering 1 iff d or arrowright is held, -1 iff only a or arrowleft is held, 0 otherwise |
| InputController.IsKeyPressed | src/controllers/InputController.ts:36-39 | true exactly when the lower-cased name is held |
| InputController.CaseInsensitive | src/controllers/InputController.ts:36-39 | names equal up to case read the same, and a name never seen reads released |
| InputController.PressReleaseAnyCase | src/controllers/InputController.ts:12-18 | a key pressed under one spelling reads pressed under any spelling, and released once let go |
| InputController.ThrottleAndBrakeTogether | src/controllers/InputController.ts:28-29 | throttle and brake are independent: both can be 1 at once |
| InputController.RightOverridesLeft | src/controllers/InputController.ts:30-31 | with left and right both held, steering is 1 |
| InputController.InputRanges | src/controllers/InputController.ts:21-34 | throttle and brake are 0 or 1; steering is -1, 0 or 1 |
| GameLoop.Tick | src/game/GameLoop.ts:26-38 | a tick of a stopped loop does nothing; otherwise dt is the clock difference in seconds, lastTime becomes now, then update, render and the next frame request follow |
| GameLoop.Start | src/game/GameLoop.ts:17-24 | a no-op while running; otherwise it records the start time and runs one tick; the loop ends up running |
| GameLoop.Stop | src/game/GameLoop.ts:40-48 | the loop stops, the frame id is cleared, and the scheduled frame (if any) is cancelled |
| GameLoop.StartStopIdempotent | src/game/GameLoop.ts:17-48 | start after start, and stop after stop, change nothing and call nothing |
| GameLoop.TickOrder | src/game/GameLoop.ts:34-37 | each tick calls update once, then render once, then requests the next frame |
| GameLoop.DeltasTelescope | src/game/GameLoop.ts:30-32 | on a monotone clock every delta is non-negative and the deltas sum to the time since the last recorded reading |
| GameLoop.PausedTimeNotCounted | src/game/GameLoop.ts:22-32 | after stop and start, the deltas sum to the time since the restart, so paused time is never counted |
| GameLoop.StaleFrameIgnored | src/game/GameLoop.ts:28 | a frame that fires after stop does nothing |
| Game.Update | src/game/Game.ts:25-28 | update steps physics once by exactly the given delta, with no clamp |
| Game.Dispatch | src/game/Game.ts:25-33 | the loop's update, render, request and cancel reach physics stepping, rendering, scheduling and unscheduling, one call each, in order |
| Game.Init | src/game/Game.ts:7-23 | physics first; the renderer only if physics succeeded; the loop only if both did; a failure is logged and leaves the game as it was |
| Game.InitOrder | src/game/Game.ts:12-17 | a successful init of a stopped game runs physics init, renderer init, one physics step, one render and one frame request, in that order |
| Game.DispatchTick | src/game/Game.ts:25-33 | a tick's update, render and frame request reach physics, renderer and scheduler as one step of the same delta, one render and one request for the same frame, in that order |
| Game.FailedInitLeavesLoopStopped | src/game/Game.ts:9-22 | if either init step fails the loop is not started |
| Game.Pause | src/game/Game.ts:35-38 | pause stops the loop and cancels its scheduled frame |
| Game.Resume | src/game/Game.ts:40-43 | resume does nothing if the loop already runs; otherwise it starts the loop, which steps physics by the time between the two clock readings, renders once and schedules the next frame, recording the tick time and the frame id |
| Game.RepeatedPauseResume | src/game/Game.ts:35-43 | repeated resume and repeated pause are no-ops |
| Camera.Init | src/entities/Camera.ts:25-130 | the configured mode is active and only its own fields are set up: free-fly starts at yaw 0, pitch 0, no movement flag held, zero velocity and speed 10; first person at eye offset (0, 1.8, 0) and third person at offset (0, 3, -6), both with smoothness 5; the camera is at the origin with zero rotation, has no target, and the invariant holds |
| Camera.EnterFree | src/entities/Camera.ts:87-101 | free-fly starts with yaw and pitch 0, all six flags off, zero velocity and speed 10 |
| Camera.EnterFirstPerson | src/entities/Camera.ts:114-118 | first person uses offset (0, 1.8, 0) and smoothness 5 |
| Camera.EnterThirdPerson | src/entities/Camera.ts:126-130 | third person uses offset (0, 3, -6) and smoothness 5 |
| Camera.Leave | src/entities/Camera.ts:104-136 | leaving free-fly drops exactly the free-fly fields; leaving a chase mode drops exactly offset and smoothness |
| Camera.SyncMode | src/entities/Camera.ts:149-178 | afterwards the active mode is the configured one; nothing changes when they already agree; a switch tears every old mode field down and leaves exactly what a fresh start in the configured mode sets up, keeping only the pose and the target; the invariant is kept |
| Camera.LocalMove | src/entities/Camera.ts:185-192 | each component is -1, 0 or 1; opposite flags cancel; forward is -z, left is -x, up is +y |
| Camera.LocalStep | src/entities/Camera.ts:195-198 | the local step is zero when the flags cancel out; with a sound square root it points along the flags' direction, scaled by speed * dt over that direction's length, so it is exactly speed * dt long |
| Camera.FreeFrame | src/entities/Camera.ts:180-204 | the camera faces (pitch, yaw, 0); it moves by the rotated, normalised step exactly when the direction has positive length, and keeps that step as its velocity; velocity is the only free-fly field it writes |
| Camera.FreeFlyMovesIffUncancelled | src/entities/Camera.ts:194-203 | with a sound square root the camera moves exactly when the held flags do not cancel, and otherwise stays put with zero velocity |
| Camera.Frame | src/entities/Camera.ts:180-225 | exactly one mode's behaviour runs: first person sits at target + offset with the target's rotation; third person shrinks its distance to target + offset by the factor 1 - dt * smoothness and looks at the target; a mode missing its target does nothing |
| Camera.LerpTowards | src/entities/Camera.ts:223 | one interpolation step scales the offset from the desired position by 1 - alpha |
| Camera.Update | src/entities/Camera.ts:147-226 | after update the active mode is the configured one, the target is untouched, and the invariant is kept |
| Camera.NoSwitchWhenModesAgree | src/entities/Camera.ts:149-178 | when modes agree no destroy or init runs: mode fields other than the free-fly velocity are kept |
| Camera.SwitchInstallsFreshMode | src/entities/Camera.ts:149-204 | in the frame of a switch the new mode's fields are the freshly set-up ones (free-fly only if the new mode is free-fly); the only field the same frame writes is the free-fly velocity |
| Camera.FreeToThirdPerson | src/entities/Camera.ts:147-226 | switching from free-fly to third person drops the free-fly fields and applies the chase step in the same frame |
| Camera.OnMouseMove | src/entities/Camera.ts:138-145 | no-op unless configured free-fly with angles defined; yaw and pitch turn against the mouse by the sensitivity; pitch is clamped to [-pi/2, pi/2]: unchanged inside, pi/2 above, -pi/2 below; nothing else changes |
| Camera.OnKeyDown | src/entities/Camera.ts:57-70 | guarded by configured free-fly with flags defined; afterwards the flag the code drives (if any) is set, the flags of other commands keep their values, nothing outside the flags changes, and a code that drives no flag changes nothing |
| Camera.OnKeyUp | src/entities/Camera.ts:72-85 | the same guard; afterwards the flag the code drives is clear, the flags of other commands keep their values, nothing outside the flags changes, and a code that drives no flag changes nothing |
| Camera.KeyUpUndoesKeyDown | src/entities/Camera.ts:57-85 | releasing a key after pressing it restores the state from before the press |
| Camera.HandbrakeAndBoostFly | src/entities/Camera.ts:67-68 | the handbrake key drives `up` and the boost key drives `down` |
| Camera.SetTarget | src/entities/Camera.ts:228-231 | the target is replaced and nothing else changes |
| Camera.SetPosition | src/entities/Camera.ts:233-236 | only the camera position changes |
| Camera.SetOffset | src/entities/Camera.ts:238-242 | the offset is replaced only while one exists |
| Camera.LookAt | src/entities/Camera.ts:244-247 | only the rotation changes, to face the given point |
| Camera.OperationsPreserveValid | src/entities/Camera.ts:104-136 | every operation keeps mode fields in step with the active mode |
| Vehicle.Merge | src/entities/Vehicle.ts:28-40 | each configuration field is the caller's value when given and the default otherwise |
| Vehicle.MergeProperties | src/entities/Vehicle.ts:28-40 | no overrides give the defaults; a full set gives itself back; overriding one field changes only that field |
| Vehicle.PhysicsBody | src/entities/Vehicle.ts:82-107 | chassis collider half the chassis size, configured mass, restitution 0.1, friction 0.8, damping 0.5 and 1.0, never asleep |
| Vehicle.CreateWheels | src/entities/Vehicle.ts:125-144 | four wheels: the first two are front wheels at z = wheelBase/2, the rear two at -wheelBase/2, alternating x = -/+trackWidth/2 |
| Vehicle.WheelsSymmetric | src/entities/Vehicle.ts:125-130 | wheels are mirrored left to right and front to back, trackWidth and wheelBase apart |
| Vehicle.Create | src/entities/Vehicle.ts:18-48 | the merged configuration, the chassis at the start position, four wheels, at rest, steering straight |
| Vehicle.GetPosition | src/entities/Vehicle.ts:268-271 | the chassis position |
| Vehicle.GetSpeed | src/entities/Vehicle.ts:273-276 | the speed recorded by the last update |
| Vehicle.EffectiveDt | src/entities/Vehicle.ts:150 | the frame time never exceeds 0.1 and is unchanged when it does not |
| Vehicle.Commands | src/entities/Vehicle.ts:188-253 | the body calls in source order, one per issued command, throttle first and the speed limit last |
| Vehicle.Actuate | src/entities/Vehicle.ts:167-253 | of the five commands, the throttle force is issued iff the throttle is positive, the brake force iff the brake is, torque and grip together iff the car is turning, and the velocity limit iff the speed exceeds the maximum |
| Vehicle.Drive | src/entities/Vehicle.ts:188-198 | a throttle force is issued iff the throttle is positive, and it is the forward direction times acceleration * throttle |
| Vehicle.Brake | src/entities/Vehicle.ts:201-222 | a brake force is issued iff the brake is positive; above forward speed 0.5 it is -forward * braking * brake, at or below 0.5 it is -forward * acceleration * 0.5 * brake |
| Vehicle.Torque | src/entities/Vehicle.ts:225-233 | a torque is issued iff the steering input exceeds 0.01 and the forward speed exceeds 1 in magnitude; it is (0, steering * abs(forward speed) * 100, 0) |
| Vehicle.Grip | src/entities/Vehicle.ts:225-242 | a grip force is issued under the same condition as the torque, and it is -right * lateral speed * 50 |
| Vehicle.Limit | src/entities/Vehicle.ts:246-253 | a velocity limit is issued iff the speed exceeds the maximum; it keeps the vertical velocity and scales the horizontal components by maxSpeed / speed |
| Vehicle.TurnWheels | src/entities/Vehicle.ts:160-165 | only front wheels take the new steering angle; every wheel keeps its mount and rolls on by the same amount |
| Vehicle.Update | src/entities/Vehicle.ts:147-266 | steering blends towards the target; only front wheels take the steer angle; every wheel rolls by forward speed * 2 * dt; the chassis copies the body pose; the speed is the body's; the commands are those of `Actuate` |
| Vehicle.ThrottlePushesForward | src/entities/Vehicle.ts:188-198 | the throttle force has a positive component along the forward direction |
| Vehicle.BrakePushesBackward | src/entities/Vehicle.ts:201-222 | braking and reversing both push against the forward direction |
| Vehicle.BrakeAgainst | src/entities/Vehicle.ts:201-222 | for any non-zero forward direction and any forward speed, the brake force points against that direction |
| Vehicle.GripOpposesSlip | src/entities/Vehicle.ts:235-242 | the grip force points against the sideways slip and vanishes without slip |
| Vehicle.TorqueFollowsSteering | src/entities/Vehicle.ts:225-233 | the steering torque is about the vertical axis and has the sign of the steering input |
| Vehicle.SpeedLimited | src/entities/Vehicle.ts:246-253 | above the top speed the new horizontal speed is at most the top speed with the vertical speed kept; otherwise the speed is within the limit |
| Vehicle.SteerBlend | src/entities/Vehicle.ts:157 | for a non-negative frame time the blend factor lies in [0, 0.8] |
| Vehicle.Steer | src/entities/Vehicle.ts:153-158 | after one frame the distance to the target is the old distance times 1 - 8 * min(dt, 0.1) |
| Vehicle.LerpStep | src/entities/Vehicle.ts:154-158 | one frame leaves (1 - t) of the distance to the target |
| Vehicle.SteerBetween | src/entities/Vehicle.ts:153-158 | the new angle lies between the current angle and the target: no overshoot |
| Vehicle.SteeringConverges | src/entities/Vehicle.ts:153-158 | with a held input the remaining distance is the initial one times a factor in (0, 1] |
| Vehicle.SteeringStaysInRange | src/entities/Vehicle.ts:153-158 | with input in [-1, 1] the angle stays within plus or minus the configured maximum |
| Vehicle.KeyboardSteeringInRange | src/entities/Vehicle.ts:153-158 | driven from the keyboard reader, the angle stays within plus or minus the configured maximum |
| Track.Merge | src/entities/Track.ts:25-31 | each field is the caller's value when given and the default (8, 100, 2, 5) otherwise |
| Track.MergeProperties | src/entities/Track.ts:25-31 | no overrides give the defaults; a full set gives itself back |
| Track.Sample | src/entities/Track.ts:91 | sample parameters lie in [0, 1], the first is 0, and every one before the last is below 1 |
| Track.SamplesOrdered | src/entities/Track.ts:89-91 | sample parameters strictly increase from 0 to 1 |
| Track.Perpendicular | src/entities/Track.ts:96 | the normal is horizontal and orthogonal to the tangent, and as long as the tangent's horizontal part |
| Track.EdgePair | src/entities/Track.ts:74-75 | the intended edges lie half the width from the point, one along the normal and one against it |
| Track.Edges | src/entities/Track.ts:74-75 | the intended road edges lie half the width from the curve, one along the normal and one against it |
| Track.EdgePairAsWritten | src/entities/Track.ts:99-100 | as computed, the first edge lies half the width along the normal and the second the square of half the width against it |
| Track.EdgesAsWritten | src/entities/Track.ts:96-100 | the mesh's edges at a parameter: half the width along the unit normal on one side, the square of half the width against it on the other |
| Track.EdgePairSymmetric | src/entities/Track.ts:74-75 | edges placed half the width either side of a point along a unit normal are centred on that point and exactly `width` apart |
| Track.EdgesSymmetric | src/entities/Track.ts:74-75 | the intended edges are centred on the curve and exactly `width` apart |
| Track.RightEdgeOverscaled | src/entities/Track.ts:99-100 | as written, the left edge is the intended one but the right edge lies (width/2)^2 from the centre line |
| Track.DefaultWidthRoadOffCentre | src/entities/Track.ts:99-100 | with width 8 the as-written edges are 4 left and 16 right of the centre line, and the right edge is 11.5 beyond the right barrier |
| Track.Index | src/entities/Track.ts:108-113 | every index of quad q lies between 2q and 2q + 3 |
| Track.VertexOffsets | src/entities/Track.ts:89-103 | vertex k (`Track.Vertex`) belongs to sample k/2: for even k it lies half the width along the normal from the curve, for odd k the square of half the width against it |
| Track.Uv | src/entities/Track.ts:105-106 | uv k is (0, t) for even k and (1, t) for odd k, where t = (k/2) / segments lies in [0, 1] for every vertex |
| Track.BuildMesh | src/entities/Track.ts:85-114 | 2(segments + 1) vertices and uvs, 6 * segments indices; vertex k is the edge of `Track.Vertex`, with the right edge overscaled as written, uv k is (0 or 1, t), index k is `Track.Index(k)`, and every index addresses an existing vertex |
| Track.IndicesInRange | src/entities/Track.ts:108-113 | every index is below 2(segments + 1) |
| Track.QuadsJoinConsecutiveSamples | src/entities/Track.ts:110-112 | quad q is the triangles (2q, 2q+1, 2q+2) and (2q+1, 2q+3, 2q+2), which share the diagonal |
| Track.BarrierEnds | src/entities/Track.ts:165-176 | both ends of a barrier are shifted by the same offset from the curve |
| Track.Barrier | src/entities/Track.ts:177-191 | a box 0.5 thick, barrierHeight tall and as long as its ends are apart, standing on the ground, centred between its ends and turned along them |
| Track.BarriersOutsideRoad | src/entities/Track.ts:172-176 | each barrier row runs half a metre outside the intended road edge on its side |
| Track.BuildBarriers | src/entities/Track.ts:161-196 | 2 * segments barriers: every segment's barrier on side -1, then every segment's on side 1 |
| Track.BarrierRowsParallel | src/entities/Track.ts:172-191 | a segment's two barriers are equally long, equally turned, and symmetric about the centre line |
| Track.BuildColliders | src/entities/Track.ts:232-257 | one collider per barrier with half its size, its centre and its yaw, restitution 0.5, friction 0.3 |
| Track.BuildCheckpoints | src/entities/Track.ts:207-212 | exactly `checkpoints` entries; entry i is the curve at i/checkpoints |
| Track.StartPosition | src/entities/Track.ts:260-264 | the curve's start, 2 units up |
| Track.StartRotation | src/entities/Track.ts:266-270 | the yaw of the curve's start tangent |
| Track.StartOnFirstCheckpoint | src/entities/Track.ts:48-65 | on the circuit's curve the car starts 2 units above the origin, which is the first checkpoint; the first row of road vertices is centred (h - h^2)/2 along the normal from it, h being half the width (6 units off at the default width) |
| Track.FirstRowOffCentre | src/entities/Track.ts:89-103 | the midpoint of the first row of road vertices lies (h - h^2)/2 along the normal from the curve's start, h being half the width |
| Track.Create | src/entities/Track.ts:16-43 | the merged configuration; the mesh's vertices, uvs and indices as built from it; the barriers, their colliders and the checkpoints |

## Findings

| source | as written | input that shows it | evidently intended | confidence | as-written member | corrected member |
|---|---|---|---|---|---|---|
| src/entities/Track.ts:99-100 | `multiplyScalar` scales the normal in place for the left edge, and the right edge scales it again, so the right edge is (width/2)^2 from the centre line | default width 8: left edge 4 units out, right edge 16 units out, which is 11.5 beyond the right barrier at 4.5 | both edges width/2 from the centre line, as the road profile from -width/2 to width/2 (lines 74-75) and the barriers at width/2 + 0.5 on both sides indicate | high (not executed) | Track.DefaultWidthRoadOffCentre | Track.EdgesSymmetric |

`Track.EdgesAsWritten` is the source's edge computation, and the road mesh
(`Track.Vertex`, `Track.BuildMesh`) keeps it. `Track.Edges` is the intended
one; `Track.BarriersOutsideRoad` measures the barriers against it.

## Left out

- Track.BuildMesh: requires at least one segment. With zero segments the source samples the curve at 0/0 (NaN), which reals cannot express.
- Track.Create: requires the merged configuration to have at least one segment, for the same reason as Track.BuildMesh, which it calls.
- Segment and checkpoint counts are natural numbers. Non-integer overrides, which the source's loops would round up, are not modelled.
- Floating-point rounding is not modelled: arithmetic is exact over the reals.
- The Three.js maths is not interpreted: square root, `atan2`, quaternion and Euler rotation, `lookAt`, `normalize`'s length, and Catmull-Rom sampling are function parameters. The circuit's control points are stated, but the curve through them is only assumed to pass through them (`Track.ThroughControlPoints`).
- Rigid-body integration and collision are left to the physics engine: forces, torques and velocity changes are only emitted as commands.
- Camera.Frame: the target is a snapshot. The source keeps a live reference to the followed object, so a later `setTarget` is needed to see it move.
- Camera.SetOffset: modelled on the shared camera state, although the source declares it an instance method on an otherwise static class.
- Camera.Init: the perspective camera's aspect ratio and field of view (window size) are not modelled; the camera starts at the origin.
- The camera reads `CONFIG` and `CONTROLS` from a `Constants` module, which is not part of this model; it is taken to equal `src/utils/Globals.ts`.
- DOM listener registration is not modelled; only the handler bodies are. Because the listeners `removeControls` passes are fresh functions, it removes nothing, and re-entering free-fly registers another set; the duplicated calls are not modelled.
- InputController.LowerChar: lower-cases the ASCII capitals only; `toLowerCase` also maps other Unicode capitals, such as 'Ä' to 'ä'.
- InputController.Lower: lower-cases ASCII letters only, as `LowerChar` does; `toLowerCase` also maps other Unicode letters.
- InputController.IsKeyPressed: the key map is a map with no inherited entries. The source's plain object inherits `Object.prototype`, so a never-pressed name such as `constructor` reads as held, and a `__proto__` key is never stored.
- InputController.CaseInsensitive: holds for names other than the inherited `Object.prototype` names, for the same reason.
- Input.IsKeyPressed: the same as `InputController.IsKeyPressed`: a code such as `constructor` that was never seen reads as not pressed here, but as pressed in the source.
- Vehicle.Merge: an absent override (`None`) means the key is missing. A key given explicitly as `undefined` overrides the default with `undefined` in the source's object spread, which the model does not express.
- Track.Merge: the same as `Vehicle.Merge`: a key given explicitly as `undefined` is not modelled.
- `performance.now` and `requestAnimationFrame` become explicit clock readings and frame ids. The loop's update and render callbacks are fixed to the game's.
- Game.Init: the source calls static `PhysicsWorld.init`, `Renderer.init` and `GameLoop.start`, which the classes as declared do not provide. The model treats them as one physics world, one renderer and one loop, and reduces each init step to a succeed-or-throw flag.
- Vehicle.Commands: states the number of calls and the first and last calls, not every position; the content of each call is stated by `Vehicle.Drive`, `Vehicle.Brake`, `Vehicle.Torque`, `Vehicle.Grip` and `Vehicle.Limit`.
- The vehicle and track configuration types are not in the type declarations shown; their fields are taken from the literals in the constructors.
- Visual-only work is not modelled: chassis and cabin meshes, materials, the track's centre line, checkpoint planes and their rotation, the mesh's small vertical lift, shadows, `onResize`, and the accessors `getChassis`, `getCurve` and `getCheckpoints`.
- The physics and renderer wrappers, the sky box, the loading screen, the FPS counter, the entry point and the build configuration are outside this model.

=== FILE: camera.dfy ===
/** The camera controller: three mutually exclusive modes whose optional
    fields exist only while their mode is active. `config` is the configured
    mode (`CONFIG.CAMERA_TYPE`), `current` the mode whose fields are set up. */
module Camera {
  import opened Wrappers
  import opened Geometry
  import opened Globals

  /** `Math.PI` */
  const Pi: real := 3.141592653589793

  /** The six free-fly movement flags. */
  datatype FlyKeys = FlyKeys(forward: bool, backward: bool, left: bool, right: bool, up: bool, down: bool)

  const Released := FlyKeys(false, false, false, false, false, false)

  /** The fields only the free-fly mode defines. */
  datatype FreeFly = FreeFly(yaw: real, pitch: real, keys: FlyKeys, velocity: Vec3, speed: real)

  /** The fields only the chase modes (first and third person) define. */
  datatype Chase = Chase(offset: Vec3, smoothness: real)

  /** Position and Euler rotation of a scene object. */
  datatype Object3D = Object3D(position: Vec3, rotation: Euler)

  datatype CameraState = CameraState(
    config: CameraType,
    current: CameraType,
    free: Option<FreeFly>,
    chase: Option<Chase>,
    view: Object3D,            // the perspective camera's own pose
    target: Option<Object3D>)  // the followed object, as last set

  /** Free-fly fields are defined exactly in free-fly mode, chase fields
      exactly in the two chase modes. */
  predicate Valid(s: CameraState)
  {
    && (s.free.Some? <==> s.current == FreeCamera)
    && (s.chase.Some? <==> s.current != FreeCamera)
  }

  /** `initFreeCamera` */
  function EnterFree(s: CameraState): (r: CameraState)
    ensures r.free == Some(FreeFly(0.0, 0.0, Released, Zero, 10.0))
    ensures r == s.(free := r.free)
  {
    s.(free := Some(FreeFly(0.0, 0.0, Released, Zero, 10.0)))
  }

  /** `initFirstPersonCamera`: eye height above the target. */
  function EnterFirstPerson(s: CameraState): (r: CameraState)
    ensures r.chase == Some(Chase(Vec3(0.0, 1.8, 0.0), 5.0))
    ensures r == s.(chase := r.chase)
  {
    s.(chase := Some(Chase(Vec3(0.0, 1.8, 0.0), 5.0)))
  }

  /** `initThirdPersonCamera`: behind and above the target. */
  function EnterThirdPerson(s: CameraState): (r: CameraState)
    ensures r.chase == Some(Chase(Vec3(0.0, 3.0, -6.0), 5.0))
    ensures r == s.(chase := r.chase)
  {
    s.(chase := Some(Chase(Vec3(0.0, 3.0, -6.0), 5.0)))
  }

  function Enter(s: CameraState, mode: CameraType): CameraState
  {
    match mode
    case FreeCamera => EnterFree(s)
    case FirstPerson => EnterFirstPerson(s)
    case ThirdPerson => EnterThirdPerson(s)
  }

  /** `destroyFreeCamera`, `destroyFirstPersonCamera`, `destroyThirdPersonCamera`. */
  function Leave(s: CameraState, mode: CameraType): (r: CameraState)
    ensures mode == FreeCamera ==> r == s.(free := None)
    ensures mode != FreeCamera ==> r == s.(chase := None)
  {
    match mode
    case FreeCamera => s.(free := None)
    case FirstPerson => s.(chase := None)
    case ThirdPerson => s.(chase := None)
  }

  /** `init`: a new camera at the origin with the configured mode set up. */
  function Init(config: CameraType): (s: CameraState)
    ensures Valid(s)
    ensures s.config == config && s.current == config
    ensures s.target.None?
    ensures s.view == Object3D(Zero, Euler(0.0, 0.0, 0.0))
    ensures config == FreeCamera ==> s.free == Some(FreeFly(0.0, 0.0, Released, Zero, 10.0))
    ensures config == FirstPerson ==> s.chase == Some(Chase(Vec3(0.0, 1.8, 0.0), 5.0))
    ensures config == ThirdPerson ==> s.chase == Some(Chase(Vec3(0.0, 3.0, -6.0), 5.0))
  {
    var blank := CameraState(config, config, None, None, Object3D(Zero, Euler(0.0, 0.0, 0.0)), None);
    Enter(blank, config)
  }

  /** The mode switch at the start of `update`: when the configured mode
      differs from the active one, tear the active mode down, set the
      configured one up and record it. A switch leaves nothing of the old
      mode behind: the result is a freshly initialised camera of the
      configured mode, keeping only the pose and the target. */
  function SyncMode(s: CameraState): (r: CameraState)
    ensures r.current == s.config && r.config == s.config
    ensures r.view == s.view && r.target == s.target
    ensures s.current == s.config ==> r == s
    ensures Valid(s) ==> Valid(r)
    ensures Valid(s) && s.current != s.config ==> r == Init(s.config).(view := s.view, target := s.target)
  {
    if s.current == s.config then s
    else Enter(Leave(s, s.current), s.config).(current := s.config)
  }

  /** The local free-fly movement direction built from the six flags. */
  function LocalMove(k: FlyKeys): (v: Vec3)
    ensures v.z in {-1.0, 0.0, 1.0} && v.x in {-1.0, 0.0, 1.0} && v.y in {-1.0, 0.0, 1.0}
    ensures v.z == 0.0 <==> k.forward == k.backward
    ensures v.z == -1.0 <==> k.forward && !k.backward
    ensures v.x == 0.0 <==> k.left == k.right
    ensures v.x == -1.0 <==> k.left && !k.right
    ensures v.y == 0.0 <==> k.up == k.down
    ensures v.y == 1.0 <==> k.up && !k.down
  {
    var z := (if k.forward then -1.0 else 0.0) + (if k.backward then 1.0 else 0.0);
    var x := (if k.left then -1.0 else 0.0) + (if k.right then 1.0 else 0.0);
    var y := (if k.up then 1.0 else 0.0) + (if k.down then -1.0 else 0.0);
    Vec3(x, y, z)
  }

  /** The local free-fly step: the local direction normalised and scaled by
      `speed * dt`. With a sound square root it points along the held flags'
      direction and is `speed * dt` long whenever they do not cancel out. */
  function LocalStep(f: FreeFly, dt: real, m: Maths): (v: Vec3)
    ensures LocalMove(f.keys) == Zero ==> v == Zero
    ensures RootOf(m, LengthSq(LocalMove(f.keys))) && LocalMove(f.keys) != Zero ==>
      LengthSq(v) == Sq(f.speed * dt)
    ensures RootOf(m, LengthSq(LocalMove(f.keys))) && LocalMove(f.keys) != Zero ==>
      v == Scale(LocalMove(f.keys), f.speed * dt / Length(m, LocalMove(f.keys)))
  {
    var d := LocalMove(f.keys);
    var v := Scale(Normalize(m, d), f.speed * dt);
    if d == Zero then NormalizeOfZero(m); ScaleOfZero(f.speed * dt); v
    else if RootOf(m, LengthSq(d)) then ScaledUnitLength(m, d, f.speed * dt); v
    else v
  }

  lemma ScaledUnitLength(m: Maths, d: Vec3, k: real)
    requires RootOf(m, LengthSq(d)) && d != Zero
    ensures LengthSq(Scale(Normalize(m, d), k)) == Sq(k)
    ensures Scale(Normalize(m, d), k) == Scale(d, k / Length(m, d))
  {
    NormalizeUnit(m, d);
    LengthSqScale(Normalize(m, d), k);
    RootPositive(m, LengthSq(d));
    ScaleNormal(d, Length(m, d), k);
  }

  /** The world-space free-fly step: the local step rotated by the camera's
      orientation. */
  function FreeStep(f: FreeFly, dt: real, m: Maths): Vec3
  {
    m.applyEuler(Euler(f.pitch, f.yaw, 0.0), LocalStep(f, dt, m))
  }

  /** The per-frame free-fly behaviour: face (pitch, yaw, 0); when the local
      direction has positive length, move by the world-space step and keep it
      as the velocity; otherwise the velocity is the zero local direction and
      the camera stays put. */
  function FreeFrame(s: CameraState, f: FreeFly, dt: real, m: Maths): (r: CameraState)
    ensures r.view.rotation == Euler(f.pitch, f.yaw, 0.0)
    ensures Length(m, LocalMove(f.keys)) > 0.0 ==>
      r.view.position == Add(s.view.position, FreeStep(f, dt, m)) && r.free == Some(f.(velocity := FreeStep(f, dt, m)))
    ensures !(Length(m, LocalMove(f.keys)) > 0.0) ==>
      r.view.position == s.view.position && r.free == Some(f.(velocity := LocalMove(f.keys)))
    ensures r == s.(free := r.free, view := r.view)
    ensures r.free.Some? && r.free.value == f.(velocity := r.free.value.velocity)
  {
    var rotation := Euler(f.pitch, f.yaw, 0.0);
    if Length(m, LocalMove(f.keys)) > 0.0 then
      var step := FreeStep(f, dt, m);
      s.(free := Some(f.(velocity := step)), view := Object3D(Add(s.view.position, step), rotation))
    else
      s.(free := Some(f.(velocity := LocalMove(f.keys))), view := Object3D(s.view.position, rotation))
  }

  /** With a sound square root the camera moves exactly when the held flags
      do not cancel out, and stays put with zero velocity otherwise. */
  lemma FreeFlyMovesIffUncancelled(s: CameraState, f: FreeFly, dt: real, m: Maths)
    requires RootOf(m, LengthSq(LocalMove(f.keys)))
    ensures LocalMove(f.keys) == Zero ==>
      FreeFrame(s, f, dt, m).view.position == s.view.position && FreeFrame(s, f, dt, m).free == Some(f.(velocity := Zero))
    ensures LocalMove(f.keys) != Zero ==>
      FreeFrame(s, f, dt, m).view.position == Add(s.view.position, FreeStep(f, dt, m))
  {
    var v := LocalMove(f.keys);
    if v != Zero {
      RootPositive(m, LengthSq(v));
    } else {
      RootOfZero(m);
    }
  }

  /** The per-frame behaviour of the active mode; a mode whose fields or
      target are missing does nothing. */
  function Frame(s: CameraState, dt: real, m: Maths): (r: CameraState)
    ensures r.config == s.config && r.current == s.current && r.chase == s.chase && r.target == s.target
    ensures r.free.Some? <==> s.free.Some?
    ensures s.current == FreeCamera && s.free.Some? ==> r == FreeFrame(s, s.free.value, dt, m)
    ensures s.current == FirstPerson && s.target.Some? && s.chase.Some? ==>
      r.view == Object3D(Add(s.target.value.position, s.chase.value.offset), s.target.value.rotation)
    ensures s.current == ThirdPerson && s.target.Some? && s.chase.Some? ==>
      var desired := Add(s.target.value.position, s.chase.value.offset);
      var alpha := dt * s.chase.value.smoothness;
      && Sub(r.view.position, desired) == Scale(Sub(s.view.position, desired), 1.0 - alpha)
      && r.view.rotation == m.lookAt(r.view.position, s.target.value.position)
    ensures s.current != FreeCamera && (s.target.None? || s.chase.None?) ==> r == s
  {
    if s.current == FreeCamera && s.free.Some? then FreeFrame(s, s.free.value, dt, m)
    else if s.current == FirstPerson && s.target.Some? && s.chase.Some? then
      var t := s.target.value;
      s.(view := Object3D(Add(t.position, s.chase.value.offset), t.rotation))
    else if s.current == ThirdPerson && s.target.Some? && s.chase.Some? then
      var t := s.target.value;
      var desired := Add(t.position, s.chase.value.offset);
      var position := Lerp(s.view.position, desired, dt * s.chase.value.smoothness);
      LerpTowards(s.view.position, desired, dt * s.chase.value.smoothness);
      s.(view := Object3D(position, m.lookAt(position, t.position)))
    else s
  }

  /** The chase step shrinks the offset from the desired position by the
      factor `1 - alpha`. */
  lemma LerpTowards(p: Vec3, d: Vec3, alpha: real)
    ensures Sub(Lerp(p, d, alpha), d) == Scale(Sub(p, d), 1.0 - alpha)
  {
    assert p.x + (d.x - p.x) * alpha - d.x == (p.x - d.x) * (1.0 - alpha);
    assert p.y + (d.y - p.y) * alpha - d.y == (p.y - d.y) * (1.0 - alpha);
    assert p.z + (d.z - p.z) * alpha - d.z == (p.z - d.z) * (1.0 - alpha);
  }

  /** `update`: the mode switch, then exactly one mode's per-frame behaviour. */
  function Update(s: CameraState, dt: real, m: Maths): (r: CameraState)
    ensures r.current == s.config && r.config == s.config && r.target == s.target
    ensures Valid(s) ==> Valid(r)
  {
    Frame(SyncMode(s), dt, m)
  }

  /** When the modes already agree nothing is torn down or set up: the mode
      fields other than the free-fly velocity are left as they were. */
  lemma NoSwitchWhenModesAgree(s: CameraState, dt: real, m: Maths)
    requires s.current == s.config
    ensures SyncMode(s) == s
    ensures Update(s, dt, m).chase == s.chase
    ensures Update(s, dt, m).free.Some? ==>
      s.free.Some? && Update(s, dt, m).free.value == s.free.value.(velocity := Update(s, dt, m).free.value.velocity)
  {
  }

  /** A switch sets the configured mode up afresh within the same frame: its
      fields are those `Init` gives it, apart from the free-fly velocity the
      frame itself writes. */
  lemma SwitchInstallsFreshMode(s: CameraState, dt: real, m: Maths)
    requires Valid(s) && s.current != s.config
    ensures Update(s, dt, m).chase == Init(s.config).chase
    ensures Update(s, dt, m).free.Some? <==> s.config == FreeCamera
    ensures Update(s, dt, m).free.Some? ==>
      Update(s, dt, m).free.value == Init(s.config).free.value.(velocity := Update(s, dt, m).free.value.velocity)
  {
    var q := SyncMode(s);
    assert q == Init(s.config).(view := s.view, target := s.target);
    assert q.chase == Init(s.config).chase && q.free == Init(s.config).free;
    if s.config == FreeCamera {
      var f := q.free.value;
      assert Update(s, dt, m) == FreeFrame(q, f, dt, m);
    }
  }

  /** Switching from free-fly to third person drops every free-fly field and
      applies the chase step in the same frame. */
  lemma FreeToThirdPerson(s: CameraState, dt: real, m: Maths)
    requires Valid(s) && s.current == FreeCamera && s.config == ThirdPerson
    requires s.target.Some?
    ensures var r := Update(s, dt, m);
      && r.free.None?
      && r.chase == Some(Chase(Vec3(0.0, 3.0, -6.0), 5.0))
      && var desired := Add(s.target.value.position, Vec3(0.0, 3.0, -6.0));
         Sub(r.view.position, desired) == Scale(Sub(s.view.position, desired), 1.0 - dt * 5.0)
  {
  }

  /** `onMouseMove`: only in configured free-fly mode with the angles defined;
      yaw and pitch turn against the mouse and pitch is clamped to ±π/2. */
  function OnMouseMove(s: CameraState, movementX: real, movementY: real): (r: CameraState)
    ensures s.config != FreeCamera || s.free.None? ==> r == s
    ensures s.config == FreeCamera && s.free.Some? ==>
      && r.free.Some?
      && -Pi / 2.0 <= r.free.value.pitch <= Pi / 2.0
      && r.free.value.yaw == s.free.value.yaw - movementX * DefaultConfig().mouseSensitivity
      && (var p := s.free.value.pitch - movementY * DefaultConfig().mouseSensitivity;
          && (-Pi / 2.0 <= p <= Pi / 2.0 ==> r.free.value.pitch == p)
          && (p > Pi / 2.0 ==> r.free.value.pitch == Pi / 2.0)
          && (p < -Pi / 2.0 ==> r.free.value.pitch == -Pi / 2.0))
      && r.free.value == s.free.value.(yaw := r.free.value.yaw, pitch := r.free.value.pitch)
    ensures r == s.(free := r.free)
  {
    if s.config != FreeCamera || s.free.None? then s
    else
      var f := s.free.value;
      var sensitivity := DefaultConfig().mouseSensitivity;
      var yaw := f.yaw - movementX * sensitivity;
      var pitch := f.pitch - movementY * sensitivity;
      var clamped := Max(-Pi / 2.0, Min(Pi / 2.0, pitch));
      s.(free := Some(f.(yaw := yaw, pitch := clamped)))
  }

  function Min(a: real, b: real): real
  {
    if a <= b then a else b
  }

  function Max(a: real, b: real): real
  {
    if a >= b then a else b
  }

  /** The flag a key code drives: HANDBRAKE drives `up` and BOOST drives
      `down`; the other three commands drive nothing. */
  function SetFlag(k: FlyKeys, c: Command, value: bool): FlyKeys
  {
    match c
    case Forward => k.(forward := value)
    case Backward => k.(backward := value)
    case Left => k.(left := value)
    case Right => k.(right := value)
    case Handbrake => k.(up := value)
    case Boost => k.(down := value)
    case _ => k
  }

  /** Whether the flag `code` drives is set (false for codes driving none). */
  function FlagOf(k: FlyKeys, code: string): bool
  {
    match CommandOf(code)
    case Some(Forward) => k.forward
    case Some(Backward) => k.backward
    case Some(Left) => k.left
    case Some(Right) => k.right
    case Some(Handbrake) => k.up
    case Some(Boost) => k.down
    case _ => false
  }

  /** Whether a code drives one of the six flags. */
  predicate DrivesFlag(code: string)
  {
    CommandOf(code).Some? && CommandOf(code).value in {Forward, Backward, Left, Right, Handbrake, Boost}
  }

  function OnKey(s: CameraState, code: string, value: bool): (r: CameraState)
    ensures r == s.(free := r.free)
    ensures r.free.Some? <==> s.free.Some?
  {
    if s.free.None? || s.config != FreeCamera then s
    else match CommandOf(code)
      case None => s
      case Some(c) => s.(free := Some(s.free.value.(keys := SetFlag(s.free.value.keys, c, value))))
  }

  /** `onKeyDown`: only in configured free-fly mode with the flags defined. */
  function OnKeyDown(s: CameraState, code: string): (r: CameraState)
    ensures s.free.None? || s.config != FreeCamera ==> r == s
    ensures s.free.Some? && s.config == FreeCamera ==>
      r.free.Some? && (FlagOf(r.free.value.keys, code) <==> DrivesFlag(code))
    ensures s.free.Some? && s.config == FreeCamera ==>
      && r.free.Some?
      && r.free.value == s.free.value.(keys := r.free.value.keys)
      && (forall other :: CommandOf(other) != CommandOf(code) ==>
            FlagOf(r.free.value.keys, other) == FlagOf(s.free.value.keys, other))
    ensures !DrivesFlag(code) ==> r == s
    ensures r == s.(free := r.free)
  {
    OnKey(s, code, true)
  }

  /** `onKeyUp`: the same guard, clearing the flag. */
  function OnKeyUp(s: CameraState, code: string): (r: CameraState)
    ensures s.free.None? || s.config != FreeCamera ==> r == s
    ensures s.free.Some? && s.config == FreeCamera ==> r.free.Some? && !FlagOf(r.free.value.keys, code)
    ensures s.free.Some? && s.config == FreeCamera ==>
      && r.free.Some?
      && r.free.value == s.free.value.(keys := r.free.value.keys)
      && (forall other :: CommandOf(other) != CommandOf(code) ==>
            FlagOf(r.free.value.keys, other) == FlagOf(s.free.value.keys, other))
    ensures !DrivesFlag(code) ==> r == s
    ensures r == s.(free := r.free)
  {
    OnKey(s, code, false)
  }

  /** A key released after being pressed leaves the state as it was before
      the press, provided its flag was clear then. */
  lemma KeyUpUndoesKeyDown(s: CameraState, code: string)
    requires s.free.Some? ==> !FlagOf(s.free.value.keys, code)
    ensures OnKeyUp(OnKeyDown(s, code), code) == s
  {
  }

  /** Space moves the free camera up and left shift moves it down. */
  lemma HandbrakeAndBoostFly(s: CameraState)
    requires s.free.Some? && s.config == FreeCamera
    ensures OnKeyDown(s, Code(Handbrake)).free.value.keys.up
    ensures OnKeyDown(s, Code(Boost)).free.value.keys.down
    ensures LocalMove(OnKeyDown(s, Code(Handbrake)).free.value.keys).y >= 0.0
  {
  }

  /** `setTarget` */
  function SetTarget(s: CameraState, target: Object3D): (r: CameraState)
    ensures r.target == Some(target) && r == s.(target := r.target)
  {
    s.(target := Some(target))
  }

  /** `setPosition` */
  function SetPosition(s: CameraState, x: real, y: real, z: real): (r: CameraState)
    ensures r.view.position == Vec3(x, y, z) && r.view.rotation == s.view.rotation
    ensures r == s.(view := r.view)
  {
    s.(view := s.view.(position := Vec3(x, y, z)))
  }

  /** `setOffset`: only while a chase offset exists. */
  function SetOffset(s: CameraState, x: real, y: real, z: real): (r: CameraState)
    ensures s.chase.None? ==> r == s
    ensures s.chase.Some? ==> r.chase == Some(s.chase.value.(offset := Vec3(x, y, z)))
    ensures r == s.(chase := r.chase)
  {
    if s.chase.None? then s else s.(chase := Some(s.chase.value.(offset := Vec3(x, y, z))))
  }

  /** `lookAt` */
  function LookAt(s: CameraState, x: real, y: real, z: real, m: Maths): (r: CameraState)
    ensures r.view.position == s.view.position
    ensures r.view.rotation == m.lookAt(s.view.position, Vec3(x, y, z))
    ensures r == s.(view := r.view)
  {
    s.(view := s.view.(rotation := m.lookAt(s.view.position, Vec3(x, y, z))))
  }

  /** Every camera operation keeps the mode fields consistent with the active
      mode, so stale fields of a left mode can never be observed. */
  lemma OperationsPreserveValid(s: CameraState, dt: real, m: Maths, mx: real, my: real,
                                code: string, t: Object3D, x: real, y: real, z: real)
    requires Valid(s)
    ensures Valid(Update(s, dt, m))
    ensures Valid(OnMouseMove(s, mx, my))
    ensures Valid(OnKeyDown(s, code)) && Valid(OnKeyUp(s, code))
    ensures Valid(SetTarget(s, t)) && Valid(SetPosition(s, x, y, z))
    ensures Valid(SetOffset(s, x, y, z)) && Valid(LookAt(s, x, y, z, m))
  {
    FramePreservesValid(s, dt, m, mx, my);
    HandlersPreserveValid(s, code);
    SettersPreserveValid(s, t, x, y, z, m);
  }

  lemma FramePreservesValid(s: CameraState, dt: real, m: Maths, mx: real, my: real)
    requires Valid(s)
    ensures Valid(Update(s, dt, m)) && Valid(OnMouseMove(s, mx, my))
  {
  }

  lemma HandlersPreserveValid(s: CameraState, code: string)
    requires Valid(s)
    ensures Valid(OnKeyDown(s, code)) && Valid(OnKeyUp(s, code))
  {
  }

  lemma SettersPreserveValid(s: CameraState, t: Object3D, x: real, y: real, z: real, m: Maths)
    requires Valid(s)
    ensures Valid(SetTarget(s, t)) && Valid(SetPosition(s, x, y, z))
    ensures Valid(SetOffset(s, x, y, z)) && Valid(LookAt(s, x, y, z, m))
  {
  }
}

=== FILE: game.dfy ===
/** The orchestrator: initialises physics, then the renderer, then starts the
    loop, whose update callback steps physics and whose render callback draws a
    frame; pause and resume stop and start the loop. */
module Game {
  import opened Wrappers
  import GameLoop

  /** Calls the game makes on its collaborators, in order. */
  datatype Call =
    | InitPhysics                      // awaits the physics engine's initialisation
    | InitRenderer                     // creates the renderer on the canvas
    | StepPhysics(dt: real)            // `update`: one physics step of `dt` seconds
    | RenderFrame                      // `render`
    | Schedule(id: GameLoop.FrameId)   // the loop requests its next frame
    | Unschedule(id: GameLoop.FrameId) // the loop cancels its scheduled frame

  /** The step of `init` whose exception was caught and logged. */
  datatype InitFailure = PhysicsInitFailed | RendererInitFailed

  datatype Game = Game(loop: GameLoop.Loop)

  datatype Launch = Launch(game: Game, calls: seq<Call>, logged: Option<InitFailure>)

  /** `update`: the physics world is stepped by the delta it is given, unclamped. */
  function Update(dt: real): (calls: seq<Call>)
    ensures |calls| == 1 && calls[0].StepPhysics? && calls[0].dt == dt
  {
    [StepPhysics(dt)]
  }

  /** How a loop effect reaches the collaborators: the update and render
      callbacks are the game's `update` and `render`. */
  function Dispatch(effects: seq<GameLoop.Effect>): (calls: seq<Call>)
    ensures |calls| == |effects|
    ensures forall i :: 0 <= i < |effects| && effects[i].Update? ==> calls[i] == Update(effects[i].dt)[0]
    ensures forall i :: 0 <= i < |effects| ==> (effects[i] == GameLoop.Render <==> calls[i] == RenderFrame)
    ensures forall i :: 0 <= i < |effects| && effects[i].Request? ==> calls[i] == Schedule(effects[i].id)
    ensures forall i :: 0 <= i < |effects| && effects[i].Cancel? ==> calls[i] == Unschedule(effects[i].id)
  {
    if |effects| == 0 then []
    else
      var call := match effects[0]
        case Update(dt) => Update(dt)[0]
        case Render => RenderFrame
        case Request(id) => Schedule(id)
        case Cancel(id) => Unschedule(id);
      [call] + Dispatch(effects[1..])
  }

  /** `init`: each step runs only if the previous one succeeded; a failure is
      caught and logged and the loop is left unstarted. `physicsOk` and
      `rendererOk` say whether the corresponding step returns normally. */
  function Init(g: Game, physicsOk: bool, rendererOk: bool,
                startNow: real, tickNow: real, next: GameLoop.FrameId): (r: Launch)
    ensures |r.calls| >= 1 && r.calls[0] == InitPhysics
    ensures physicsOk <==> |r.calls| >= 2 && r.calls[1] == InitRenderer
    ensures r.logged.None? <==> physicsOk && rendererOk
    ensures !physicsOk ==> r.logged == Some(PhysicsInitFailed)
    ensures physicsOk && !rendererOk ==> r.logged == Some(RendererInitFailed)
    ensures r.logged.Some? ==> r.game == g && |r.calls| <= 2
    ensures r.logged.None? ==> r.game.loop == GameLoop.Start(g.loop, startNow, tickNow, next).loop
  {
    if !physicsOk then Launch(g, [InitPhysics], Some(PhysicsInitFailed))
    else if !rendererOk then Launch(g, [InitPhysics, InitRenderer], Some(RendererInitFailed))
    else
      var s := GameLoop.Start(g.loop, startNow, tickNow, next);
      Launch(Game(s.loop), [InitPhysics, InitRenderer] + Dispatch(s.effects), None)
  }

  /** A successful `init` on a stopped loop initialises physics, then the
      renderer, then runs the first tick: one physics step, then one frame. */
  lemma InitOrder(g: Game, startNow: real, tickNow: real, next: GameLoop.FrameId)
    requires !g.loop.running
    ensures var r := Init(g, true, true, startNow, tickNow, next);
      && r.game.loop.running
      && r.calls == [InitPhysics, InitRenderer, StepPhysics((tickNow - startNow) / 1000.0),
                     RenderFrame, Schedule(next)]
  {
    DispatchTick((tickNow - startNow) / 1000.0, next);
  }

  /** A tick's three effects reach the collaborators as one physics step,
      one render and one scheduled frame, in that order. */
  lemma DispatchTick(dt: real, next: GameLoop.FrameId)
    ensures Dispatch([GameLoop.Update(dt), GameLoop.Render, GameLoop.Request(next)])
         == [StepPhysics(dt), RenderFrame, Schedule(next)]
  {
    var d := Dispatch([GameLoop.Update(dt), GameLoop.Render, GameLoop.Request(next)]);
    assert d[0] == StepPhysics(dt);
    assert d[1] == RenderFrame;
  }

  /** A failed `init` never starts the loop. */
  lemma FailedInitLeavesLoopStopped(g: Game, physicsOk: bool, rendererOk: bool,
                                    startNow: real, tickNow: real, next: GameLoop.FrameId)
    requires !g.loop.running
    requires !(physicsOk && rendererOk)
    ensures !Init(g, physicsOk, rendererOk, startNow, tickNow, next).game.loop.running
  {
  }

  /** `pause` stops the loop. */
  function Pause(g: Game): (r: (Game, seq<Call>))
    ensures !r.0.loop.running && r.0.loop.frame.None?
    ensures g.loop.frame.Some? ==> r.1 == [Unschedule(g.loop.frame.value)]
    ensures g.loop.frame.None? ==> r.1 == []
  {
    var s := GameLoop.Stop(g.loop);
    (Game(s.loop), Dispatch(s.effects))
  }

  /** `resume` starts the loop. */
  function Resume(g: Game, startNow: real, tickNow: real, next: GameLoop.FrameId): (r: (Game, seq<Call>))
    ensures r.0.loop.running
    ensures g.loop.running ==> r == (g, [])
    ensures !g.loop.running ==>
      && r.1 == [StepPhysics((tickNow - startNow) / 1000.0), RenderFrame, Schedule(next)]
      && r.0.loop.lastTime == tickNow && r.0.loop.frame == Some(next)
  {
    var s := GameLoop.Start(g.loop, startNow, tickNow, next);
    DispatchTick((tickNow - startNow) / 1000.0, next);
    (Game(s.loop), Dispatch(s.effects))
  }

  /** Resuming a running game and pausing a paused one change nothing. */
  lemma RepeatedPauseResume(g: Game, t0: real, t1: real, n: GameLoop.FrameId,
                            u0: real, u1: real, m: GameLoop.FrameId)
    ensures var r := Resume(g, t0, t1, n).0; Resume(r, u0, u1, m) == (r, [])
    ensures var p := Pause(g).0; Pause(p) == (p, [])
  {
  }
}

=== FILE: game_loop.dfy ===
/** The animation-frame loop: a running flag, the clock value of the previous
    tick and the id of the scheduled frame. Clock readings and frame ids are
    explicit arguments; what a tick does is reported as a list of effects. */
module GameLoop {
  import opened Wrappers

  /** Opaque id returned by the browser when a frame is scheduled. */
  type FrameId = nat

  datatype Loop = Loop(running: bool, lastTime: real, frame: Option<FrameId>)

  /** Calls made by the loop, in order. */
  datatype Effect =
    | Update(dt: real)        // the update callback, with the delta in seconds
    | Render                  // the render callback
    | Request(id: FrameId)    // requestAnimationFrame, which returned `id`
    | Cancel(id: FrameId)     // cancelAnimationFrame

  datatype Step = Step(loop: Loop, effects: seq<Effect>)

  /** A freshly constructed loop. */
  function New(): Loop
  {
    Loop(false, 0.0, None)
  }

  /** One run of the frame callback at clock `now` (milliseconds); `next` is
      the id the browser hands back for the following frame. */
  function Tick(l: Loop, now: real, next: FrameId): (r: Step)
    ensures !l.running ==> r == Step(l, [])
    ensures l.running ==> r.loop.running && r.loop.lastTime == now && r.loop.frame == Some(next)
    ensures l.running ==> r.effects == [Update((now - l.lastTime) / 1000.0), Render, Request(next)]
  {
    if !l.running then Step(l, [])
    else
      var dt := (now - l.lastTime) / 1000.0;
      Step(Loop(true, now, Some(next)), [Update(dt), Render, Request(next)])
  }

  /** `start`: a no-op while running; otherwise record `startNow` and run the
      first tick at once, which reads the clock again (`tickNow`). */
  function Start(l: Loop, startNow: real, tickNow: real, next: FrameId): (r: Step)
    ensures l.running ==> r == Step(l, [])
    ensures !l.running ==> r == Tick(Loop(true, startNow, l.frame), tickNow, next)
    ensures r.loop.running
  {
    if l.running then Step(l, [])
    else Tick(Loop(true, startNow, l.frame), tickNow, next)
  }

  /** `stop`: clear the flag and cancel the scheduled frame, if any. */
  function Stop(l: Loop): (r: Step)
    ensures !r.loop.running && r.loop.frame.None?
    ensures r.loop.lastTime == l.lastTime
    ensures l.frame.Some? ==> r.effects == [Cancel(l.frame.value)]
    ensures l.frame.None? ==> r.effects == []
  {
    var effects := if l.frame.Some? then [Cancel(l.frame.value)] else [];
    Step(Loop(false, l.lastTime, None), effects)
  }

  /** Starting twice is starting once; stopping twice is stopping once. */
  lemma StartStopIdempotent(l: Loop, t0: real, t1: real, n: FrameId, u0: real, u1: real, m: FrameId)
    ensures var s := Start(l, t0, t1, n); Start(s.loop, u0, u1, m) == Step(s.loop, [])
    ensures var s := Stop(l); Stop(s.loop) == Step(s.loop, [])
  {
  }

  /** Each tick calls update exactly once and then render exactly once. */
  lemma TickOrder(l: Loop, now: real, next: FrameId)
    requires l.running
    ensures var e := Tick(l, now, next).effects;
      |e| == 3 && e[0].Update? && e[1] == Render && e[2].Request?
  {
  }

  /** A tick's clock reading. */
  datatype Frame = Frame(now: real, id: FrameId)

  /** Runs the frame callback once per frame, in order. */
  function Run(l: Loop, frames: seq<Frame>): Step
    decreases |frames|
  {
    if |frames| == 0 then Step(l, [])
    else
      var s := Tick(l, frames[0].now, frames[0].id);
      var rest := Run(s.loop, frames[1..]);
      Step(rest.loop, s.effects + rest.effects)
  }

  /** Sum of the deltas handed to the update callback. */
  function TotalDt(effects: seq<Effect>): real
  {
    if |effects| == 0 then 0.0
    else (if effects[0].Update? then effects[0].dt else 0.0) + TotalDt(effects[1..])
  }

  /** Every delta handed to the update callback is non-negative. */
  predicate DeltasNonNegative(effects: seq<Effect>)
  {
    forall i :: 0 <= i < |effects| && effects[i].Update? ==> effects[i].dt >= 0.0
  }

  /** Clock readings that never go backwards, starting from `from`. */
  predicate Monotone(from: real, frames: seq<Frame>)
  {
    && (|frames| > 0 ==> from <= frames[0].now)
    && (forall i :: 0 < i < |frames| ==> frames[i - 1].now <= frames[i].now)
  }

  lemma TotalDtOfTick(dt: real, id: FrameId)
    ensures TotalDt([Update(dt), Render, Request(id)]) == dt
  {
    var e := [Update(dt), Render, Request(id)];
    assert e[1..] == [Render, Request(id)];
    assert e[1..][1..] == [Request(id)];
    assert e[1..][1..][1..] == [];
    assert TotalDt([Request(id)]) == 0.0;
    assert TotalDt([Render, Request(id)]) == 0.0;
  }

  lemma TotalDtAppend(a: seq<Effect>, b: seq<Effect>)
    ensures TotalDt(a + b) == TotalDt(a) + TotalDt(b)
  {
    if |a| == 0 {
      assert a + b == b;
    } else {
      assert (a + b)[1..] == a[1..] + b;
      TotalDtAppend(a[1..], b);
    }
  }

  /** While running on a monotone clock, the deltas are non-negative and add
      up to the clock time elapsed since the last recorded reading: they
      telescope. */
  lemma {:induction false} DeltasTelescope(l: Loop, frames: seq<Frame>)
    requires l.running
    requires |frames| > 0
    requires Monotone(l.lastTime, frames)
    ensures DeltasNonNegative(Run(l, frames).effects)
    ensures TotalDt(Run(l, frames).effects) == (frames[|frames| - 1].now - l.lastTime) / 1000.0
    ensures Run(l, frames).loop.lastTime == frames[|frames| - 1].now
    decreases |frames|
  {
    var s := Tick(l, frames[0].now, frames[0].id);
    assert s.effects == [Update((frames[0].now - l.lastTime) / 1000.0), Render, Request(frames[0].id)];
    TotalDtOfTick((frames[0].now - l.lastTime) / 1000.0, frames[0].id);
    assert frames[0].now >= l.lastTime;
    assert DeltasNonNegative(s.effects);
    var rest := frames[1..];
    if |rest| == 0 {
      assert Run(s.loop, rest) == Step(s.loop, []);
      assert Run(l, frames).effects == s.effects + [];
      assert s.effects + [] == s.effects;
    } else {
      assert Monotone(s.loop.lastTime, rest) by {
        assert frames[0].now <= frames[1].now;
        forall i | 0 < i < |rest|
          ensures rest[i - 1].now <= rest[i].now
        {
          assert rest[i] == frames[i + 1];
          assert rest[i - 1] == frames[i];
        }
      }
      DeltasTelescope(s.loop, rest);
      var r := Run(s.loop, rest);
      TotalDtAppend(s.effects, r.effects);
      var all := s.effects + r.effects;
      forall i | 0 <= i < |all| && all[i].Update?
        ensures all[i].dt >= 0.0
      {
        if i >= |s.effects| {
          assert all[i] == r.effects[i - |s.effects|];
        } else {
          assert all[i] == s.effects[i];
        }
      }
    }
  }

  /** Time spent stopped is never counted: after `stop` and `start`, the
      deltas add up to the time since the restart, whatever happened before. */
  lemma {:induction false} PausedTimeNotCounted(l: Loop, t0: real, first: Frame, frames: seq<Frame>)
    requires t0 <= first.now
    requires Monotone(first.now, frames)
    ensures var stopped := Stop(l).loop;
      var started := Start(stopped, t0, first.now, first.id);
      var later := Run(started.loop, frames);
      var last := if |frames| == 0 then first.now else frames[|frames| - 1].now;
      TotalDt(started.effects + later.effects) == (last - t0) / 1000.0
  {
    var stopped := Stop(l).loop;
    var started := Start(stopped, t0, first.now, first.id);
    assert started.effects == [Update((first.now - t0) / 1000.0), Render, Request(first.id)];
    TotalDtOfTick((first.now - t0) / 1000.0, first.id);
    var later := Run(started.loop, frames);
    TotalDtAppend(started.effects, later.effects);
    if |frames| > 0 {
      DeltasTelescope(started.loop, frames);
    }
  }

  /** A frame that fires after `stop` does nothing. */
  lemma StaleFrameIgnored(l: Loop, now: real, next: FrameId)
    ensures var s := Stop(l).loop; Tick(s, now, next) == Step(s, [])
  {
  }
}

=== FILE: geometry.dfy ===
/** Vector arithmetic as Three.js performs it on `Vector3`, over exact reals.
    The transcendental parts of the engine's float maths (square root, `atan2`,
    quaternion and Euler rotation, `lookAt`) are not interpreted: they are the
    fields of a `Maths` record that every operation needing them receives. */
module Geometry {

  datatype Vec3 = Vec3(x: real, y: real, z: real)

  datatype Euler = Euler(x: real, y: real, z: real)

  datatype Quat = Quat(x: real, y: real, z: real, w: real)

  const Zero := Vec3(0.0, 0.0, 0.0)

  const Identity := Quat(0.0, 0.0, 0.0, 1.0)

  /** The uninterpreted float maths of the rendering engine. */
  datatype Maths = Maths(
    sqrt: real -> real,                 // Math.sqrt
    atan2: (real, real) -> real,        // Math.atan2(y, x)
    applyQuat: (Quat, Vec3) -> Vec3,    // Vector3.applyQuaternion
    applyEuler: (Euler, Vec3) -> Vec3,  // rotation by the quaternion of an Euler angle triple
    lookAt: (Vec3, Vec3) -> Euler,      // orientation of an object at eye looking at a point
    yawQuat: real -> Quat               // quaternion of a rotation about the vertical axis
  )

  /** `sqrt` behaves as the real square root at `x`. */
  predicate RootOf(m: Maths, x: real)
  {
    m.sqrt(x) >= 0.0 && Sq(m.sqrt(x)) == x
  }

  function Add(a: Vec3, b: Vec3): Vec3
  {
    Vec3(a.x + b.x, a.y + b.y, a.z + b.z)
  }

  function Sub(a: Vec3, b: Vec3): Vec3
  {
    Vec3(a.x - b.x, a.y - b.y, a.z - b.z)
  }

  /** `multiplyScalar` */
  function Scale(a: Vec3, k: real): Vec3
  {
    Vec3(a.x * k, a.y * k, a.z * k)
  }

  function Dot(a: Vec3, b: Vec3): real
  {
    a.x * b.x + a.y * b.y + a.z * b.z
  }

  /** Product, kept behind a function so that squares are matched as terms. */
  function Mul(a: real, b: real): real
  {
    a * b
  }

  lemma MulSelfNonNegative(r: real)
    ensures Mul(r, r) >= 0.0
  {
  }

  lemma MulSelfPositive(r: real)
    requires r != 0.0
    ensures Mul(r, r) > 0.0
  {
    if r > 0.0 {
      MulPositive(r, r);
    } else {
      MulPositive(-r, -r);
      assert Mul(-r, -r) == Mul(r, r);
    }
  }

  lemma MulPositive(a: real, b: real)
    requires a > 0.0 && b > 0.0
    ensures Mul(a, b) > 0.0
  {
  }

  /** `Math.abs` */
  function Abs(r: real): (a: real)
    ensures a >= 0.0 && (a == r || a == -r)
  {
    if r < 0.0 then -r else r
  }

  /** The square of a real: non-negative, and zero only at zero. */
  function Sq(r: real): (s: real)
    ensures s >= 0.0
    ensures s == 0.0 <==> r == 0.0
  {
    MulSelfNonNegative(r);
    if r != 0.0 then MulSelfPositive(r); Mul(r, r) else Mul(r, r)
  }

  /** Squared length, the sum of the squared components (equal to `Dot(a, a)`). */
  function LengthSq(a: Vec3): (s: real)
    ensures s >= 0.0
    ensures s == 0.0 <==> a == Zero
  {
    Sq(a.x) + Sq(a.y) + Sq(a.z)
  }

  function Length(m: Maths, a: Vec3): real
  {
    m.sqrt(LengthSq(a))
  }

  /** `normalize`: divide by the length, or by 1 when the length is 0. */
  function Normalize(m: Maths, a: Vec3): Vec3
  {
    var len := Length(m, a);
    Scale(a, 1.0 / (if len == 0.0 then 1.0 else len))
  }

  /** `distanceTo` */
  function Distance(m: Maths, a: Vec3, b: Vec3): real
  {
    Length(m, Sub(a, b))
  }

  /** `Vector3.lerp`: each component moves by `(b - a) * alpha`. */
  function Lerp(a: Vec3, b: Vec3, alpha: real): Vec3
  {
    Vec3(a.x + (b.x - a.x) * alpha, a.y + (b.y - a.y) * alpha, a.z + (b.z - a.z) * alpha)
  }

  lemma SqProduct(r: real, k: real)
    ensures Sq(r * k) == Mul(Sq(k), Sq(r))
  {
  }

  lemma LengthSqScale(a: Vec3, k: real)
    ensures LengthSq(Scale(a, k)) == Mul(Sq(k), LengthSq(a))
  {
    var b := Scale(a, k);
    var q := Sq(k);
    assert LengthSq(b) == Sq(a.x * k) + Sq(a.y * k) + Sq(a.z * k) by {
      assert b == Vec3(a.x * k, a.y * k, a.z * k);
    }
    SqProduct(a.x, k);
    SqProduct(a.y, k);
    SqProduct(a.z, k);
    Distribute(q, Sq(a.x), Sq(a.y), Sq(a.z));
  }

  lemma Distribute(k: real, a: real, b: real, c: real)
    ensures Mul(k, a + b + c) == Mul(k, a) + Mul(k, b) + Mul(k, c)
  {
  }

  lemma MulNegative(a: real, b: real)
    requires a < 0.0 && b > 0.0
    ensures Mul(a, b) < 0.0
  {
  }

  /** Multiplying by a non-negative factor keeps an inequality. */
  lemma MulMonotone(a: real, x: real, y: real)
    requires a >= 0.0 && x <= y
    ensures Mul(a, x) <= Mul(a, y)
  {
    MulNonNegative(a, y - x);
  }

  lemma MulAssoc(a: real, b: real, c: real)
    ensures Mul(a, Mul(b, c)) == Mul(Mul(b, a), c)
  {
  }

  lemma MulNonNegative(a: real, b: real)
    requires a >= 0.0 && b >= 0.0
    ensures Mul(a, b) >= 0.0
  {
  }

  /** A vector scaled by `k` has component `k * |a|²` along `a`. */
  lemma DotScaleSelf(a: Vec3, k: real)
    ensures Dot(Scale(a, k), a) == Mul(k, LengthSq(a))
  {
    Distribute(k, Sq(a.x), Sq(a.y), Sq(a.z));
  }

  /** A sound square root of a non-zero number is positive. */
  lemma RootPositive(m: Maths, x: real)
    requires RootOf(m, x)
    ensures x != 0.0 ==> m.sqrt(x) > 0.0
  {
  }

  /** Scaling the normalised `d` by `k` scales `d` by `k / len`. */
  lemma ScaleNormal(d: Vec3, len: real, k: real)
    requires len != 0.0
    ensures Scale(Scale(d, 1.0 / (if len == 0.0 then 1.0 else len)), k) == Scale(d, k / len)
  {
    var q := 1.0 / len;
    assert q * k == k / len;
    assert d.x * q * k == d.x * (q * k);
    assert d.y * q * k == d.y * (q * k);
    assert d.z * q * k == d.z * (q * k);
  }

  lemma ScaleOfZero(k: real)
    ensures Scale(Zero, k) == Zero
  {
  }

  lemma ScaleZero(len: real)
    ensures Scale(Zero, 1.0 / (if len == 0.0 then 1.0 else len)) == Zero
  {
  }

  /** The zero vector normalises to itself, whatever the square root. */
  lemma NormalizeOfZero(m: Maths)
    ensures Normalize(m, Zero) == Zero
  {
    ScaleZero(Length(m, Zero));
  }

  lemma DivSelf(r: real)
    requires r != 0.0
    ensures r / r == 1.0
  {
  }

  /** The only sound square root of zero is zero. */
  lemma RootOfZero(m: Maths)
    requires RootOf(m, 0.0)
    ensures m.sqrt(0.0) == 0.0
  {
  }

  /** A vector of non-zero length normalised with a sound square root has
      length 1; the zero vector stays zero. */
  lemma NormalizeUnit(m: Maths, a: Vec3)
    requires RootOf(m, LengthSq(a))
    ensures a == Zero ==> Normalize(m, a) == Zero
    ensures LengthSq(a) != 0.0 ==> LengthSq(Normalize(m, a)) == 1.0
  {
    var len := Length(m, a);
    if LengthSq(a) != 0.0 {
      var k := 1.0 / len;
      LengthSqScale(a, k);
      SqProduct(k, len);
      assert k * len == 1.0;
    }
  }
}

=== FILE: globals.dfy ===
/** The game-wide constants: the key binding of every logical command and the
    configuration defaults. */
module Globals {
  import opened Wrappers

  const GameTitle: string := "SOPRATESTAR"
  const Version: string := "1.0.0"

  /** The three mutually exclusive camera modes. */
  datatype CameraType = ThirdPerson | FirstPerson | FreeCamera

  /** The nine logical commands of the binding table. */
  datatype Command =
    | Forward | Backward | Left | Right | Handbrake | Boost
    | ChangeCamera | Exit | Pause

  const Commands: seq<Command> :=
    [Forward, Backward, Left, Right, Handbrake, Boost, ChangeCamera, Exit, Pause]

  /** The `KeyboardEvent.code` bound to a command. */
  function Code(c: Command): string
  {
    match c
    case Forward => "KeyW"
    case Backward => "KeyS"
    case Left => "KeyA"
    case Right => "KeyD"
    case Handbrake => "Space"
    case Boost => "ShiftLeft"
    case ChangeCamera => "KeyC"
    case Exit => "Escape"
    case Pause => "KeyP"
  }

  /** The command a key code is bound to, if any: the dispatch a `switch` over
      the binding table performs. */
  function CommandOf(code: string): (r: Option<Command>)
    ensures r.Some? ==> Code(r.value) == code
    ensures r.None? ==> forall c: Command :: Code(c) != code
  {
    if code == "KeyW" then Some(Forward)
    else if code == "KeyS" then Some(Backward)
    else if code == "KeyA" then Some(Left)
    else if code == "KeyD" then Some(Right)
    else if code == "Space" then Some(Handbrake)
    else if code == "ShiftLeft" then Some(Boost)
    else if code == "KeyC" then Some(ChangeCamera)
    else if code == "Escape" then Some(Exit)
    else if code == "KeyP" then Some(Pause)
    else None
  }

  /** Dispatching the code of a command finds that command again. */
  lemma CommandOfCode(c: Command)
    ensures CommandOf(Code(c)) == Some(c)
  {
  }

  /** The table lists every command exactly once and binds pairwise distinct
      codes, so no key triggers two commands. */
  lemma BindingTable()
    ensures |Commands| == 9
    ensures forall c: Command :: c in Commands
    ensures forall i, j :: 0 <= i < j < |Commands| ==> Commands[i] != Commands[j]
    ensures forall c, d: Command :: Code(c) == Code(d) ==> c == d
  {
    forall c: Command
      ensures c in Commands
    {
      match c
      case Forward => assert Commands[0] == c;
      case Backward => assert Commands[1] == c;
      case Left => assert Commands[2] == c;
      case Right => assert Commands[3] == c;
      case Handbrake => assert Commands[4] == c;
      case Boost => assert Commands[5] == c;
      case ChangeCamera => assert Commands[6] == c;
      case Exit => assert Commands[7] == c;
      case Pause => assert Commands[8] == c;
    }
    forall c, d: Command | Code(c) == Code(d)
      ensures c == d
    {
      CommandOfCode(c);
      CommandOfCode(d);
    }
  }

  /** `CONFIG`: the runtime configuration surface. */
  datatype Config = Config(cameraType: CameraType, fov: real, mouseSensitivity: real)

  function DefaultConfig(): (c: Config)
    ensures c.cameraType == FreeCamera
    ensures c.fov == 90.0
    ensures c.mouseSensitivity == 0.002
  {
    Config(FreeCamera, 90.0, 0.002)
  }
}

=== FILE: input.dfy ===
/** The command-code keyboard state: a map from `KeyboardEvent.code` to
    "held", created by `init` with every bound command released and updated
    by the window's key listeners. */
module Input {
  import opened Wrappers
  import opened Globals

  /** Before `init` the key map is undefined and no listener is registered. */
  datatype KeyState = Uninitialised | Ready(keys: map<string, bool>)

  /** The `TypeError` a query raises while the key map is undefined. */
  datatype InputError = KeysUndefined

  /** The map `init` installs: the nine bound codes, all released. */
  function Init(): (s: KeyState)
    ensures s.Ready?
    ensures forall c: Command :: Code(c) in s.keys && !s.keys[Code(c)]
    ensures forall code :: code in s.keys <==> CommandOf(code).Some?
  {
    Ready(map[
      Code(Forward) := false, Code(Backward) := false, Code(Left) := false,
      Code(Right) := false, Code(Handbrake) := false, Code(Boost) := false,
      Code(ChangeCamera) := false, Code(Exit) := false, Code(Pause) := false])
  }

  /** The keydown listener marks the event's code as held. */
  function KeyDown(s: KeyState, code: string): (r: KeyState)
    ensures r.Ready? <==> s.Ready?
    ensures r.Ready? ==> code in r.keys && r.keys[code]
    ensures r.Ready? ==> r.keys.Keys == s.keys.Keys + {code}
    ensures r.Ready? ==> forall k :: k in s.keys && k != code ==> r.keys[k] == s.keys[k]
  {
    match s
    case Uninitialised => s
    case Ready(keys) => Ready(keys[code := true])
  }

  /** The keyup listener marks the event's code as released. */
  function KeyUp(s: KeyState, code: string): (r: KeyState)
    ensures r.Ready? <==> s.Ready?
    ensures r.Ready? ==> code in r.keys && !r.keys[code]
    ensures r.Ready? ==> r.keys.Keys == s.keys.Keys + {code}
    ensures r.Ready? ==> forall k :: k in s.keys && k != code ==> r.keys[k] == s.keys[k]
  {
    match s
    case Uninitialised => s
    case Ready(keys) => Ready(keys[code := false])
  }

  /** `isKeyPressed`: the stored flag, `false` for a code never seen, and the
      error the source raises when the map is still undefined. */
  function IsKeyPressed(s: KeyState, code: string): (r: Result<bool, InputError>)
    ensures s.Uninitialised? <==> r.Failure?
    ensures r.Success? ==> (r.value <==> code in s.keys && s.keys[code])
  {
    match s
    case Uninitialised => Failure(KeysUndefined)
    case Ready(keys) => Success(if code in keys then keys[code] else false)
  }

  /** Right after `init` no command reads as pressed. */
  lemma InitReleasesAll(c: Command)
    ensures IsKeyPressed(Init(), Code(c)) == Success(false)
  {
  }

  /** Pressing a key makes it read pressed; releasing it afterwards makes it
      read released again; no other code's reading changes. */
  lemma PressThenRelease(s: KeyState, code: string, other: string)
    requires s.Ready?
    requires other != code
    ensures IsKeyPressed(KeyDown(s, code), code) == Success(true)
    ensures IsKeyPressed(KeyUp(KeyDown(s, code), code), code) == Success(false)
    ensures IsKeyPressed(KeyDown(s, code), other) == IsKeyPressed(s, other)
    ensures IsKeyPressed(KeyUp(s, code), other) == IsKeyPressed(s, other)
  {
  }

  /** Key events never remove an entry: the nine bound codes stay present. */
  lemma EventsKeepBindings(s: KeyState, code: string, down: bool)
    requires s.Ready?
    requires forall c: Command :: Code(c) in s.keys
    ensures var r := if down then KeyDown(s, code) else KeyUp(s, code);
      forall c: Command :: Code(c) in r.keys
  {
  }

  /** Events delivered before `init` change nothing, since no listener exists yet. */
  lemma EventsBeforeInit(code: string)
    ensures KeyDown(Uninitialised, code) == Uninitialised
    ensures KeyUp(Uninitialised, code) == Uninitialised
    ensures IsKeyPressed(Uninitialised, code).Failure?
  {
  }
}

=== FILE: input_controller.dfy ===
/** The vehicle's keyboard reader: a map from lower-cased `KeyboardEvent.key`
    names to "held", and the mapping from held keys to the vehicle's
    throttle, brake and steering inputs. */
module InputController {

  /** The vehicle's control input: throttle and brake in [0, 1], steering in [-1, 1]. */
  datatype Controls = Controls(throttle: real, brake: real, steering: real)

  predicate IsUpper(c: char)
  {
    'A' <= c <= 'Z'
  }

  function LowerChar(c: char): (r: char)
    ensures !IsUpper(r)
    ensures !IsUpper(c) ==> r == c
    ensures IsUpper(c) ==> 'a' <= r <= 'z' && r as int - 'a' as int == c as int - 'A' as int
  {
    if IsUpper(c) then (c as int + 32) as char else c
  }

  /** `toLowerCase`, on the ASCII letters. */
  function Lower(s: string): (r: string)
    ensures |r| == |s|
    ensures forall i :: 0 <= i < |r| ==> !IsUpper(r[i])
    ensures forall i :: 0 <= i < |s| && !IsUpper(s[i]) ==> r[i] == s[i]
    ensures forall i :: 0 <= i < |s| && IsUpper(s[i]) ==>
      'a' <= r[i] <= 'z' && r[i] as int - 'a' as int == s[i] as int - 'A' as int
  {
    seq(|s|, i requires 0 <= i < |s| => LowerChar(s[i]))
  }

  /** Lower-casing twice is lower-casing once. */
  lemma LowerIdempotent(s: string)
    ensures Lower(Lower(s)) == Lower(s)
  {
  }

  /** The reader's key map; it starts empty. */
  datatype KeyMap = KeyMap(held: map<string, bool>)

  function New(): KeyMap
  {
    KeyMap(map[])
  }

  /** A key name held according to the map (absent names are not held). */
  predicate Held(k: KeyMap, name: string)
  {
    name in k.held && k.held[name]
  }

  function KeyDown(k: KeyMap, key: string): (r: KeyMap)
    ensures Held(r, Lower(key))
    ensures forall name :: name != Lower(key) ==> Held(r, name) == Held(k, name)
  {
    KeyMap(k.held[Lower(key) := true])
  }

  function KeyUp(k: KeyMap, key: string): (r: KeyMap)
    ensures !Held(r, Lower(key))
    ensures forall name :: name != Lower(key) ==> Held(r, name) == Held(k, name)
  {
    KeyMap(k.held[Lower(key) := false])
  }

  /** `getInput`: WASD or arrow keys; "right" is tested last and so wins over "left". */
  function GetInput(k: KeyMap): (c: Controls)
    ensures c.throttle == 1.0 <==> Held(k, "w") || Held(k, "arrowup")
    ensures c.throttle == 0.0 <==> !(Held(k, "w") || Held(k, "arrowup"))
    ensures c.brake == 1.0 <==> Held(k, "s") || Held(k, "arrowdown")
    ensures c.brake == 0.0 <==> !(Held(k, "s") || Held(k, "arrowdown"))
    ensures c.steering == 1.0 <==> Held(k, "d") || Held(k, "arrowright")
    ensures c.steering == -1.0 <==>
      !(Held(k, "d") || Held(k, "arrowright")) && (Held(k, "a") || Held(k, "arrowleft"))
    ensures c.steering == 0.0 <==>
      !(Held(k, "d") || Held(k, "arrowright") || Held(k, "a") || Held(k, "arrowleft"))
  {
    var throttle := if Held(k, "w") || Held(k, "arrowup") then 1.0 else 0.0;
    var brake := if Held(k, "s") || Held(k, "arrowdown") then 1.0 else 0.0;
    var steering :=
      if Held(k, "d") || Held(k, "arrowright") then 1.0
      else if Held(k, "a") || Held(k, "arrowleft") then -1.0
      else 0.0;
    Controls(throttle, brake, steering)
  }

  /** `isKeyPressed` compares lower-cased names. */
  function IsKeyPressed(k: KeyMap, key: string): (b: bool)
    ensures b <==> Held(k, Lower(key))
  {
    Lower(key) in k.held && k.held[Lower(key)]
  }

  /** Queries are case-insensitive, and a name never seen reads as released. */
  lemma CaseInsensitive(k: KeyMap, a: string, b: string)
    requires Lower(a) == Lower(b)
    ensures IsKeyPressed(k, a) == IsKeyPressed(k, b)
    ensures Lower(a) !in k.held ==> !IsKeyPressed(k, a)
  {
  }

  /** A key pressed under any spelling reads pressed under every spelling,
      and reads released once let go. */
  lemma PressReleaseAnyCase(k: KeyMap, a: string, b: string)
    requires Lower(a) == Lower(b)
    ensures IsKeyPressed(KeyDown(k, a), b)
    ensures !IsKeyPressed(KeyUp(KeyDown(k, a), a), b)
  {
  }

  /** Holding "W" and "S" together yields full throttle and full brake at once:
      the two are independent. */
  lemma ThrottleAndBrakeTogether()
    ensures var c := GetInput(KeyDown(KeyDown(New(), "W"), "S"));
      c.throttle == 1.0 && c.brake == 1.0 && c.steering == 0.0
  {
    assert Lower("W") == "w";
    assert Lower("S") == "s";
    assert "s" != "w";
  }

  /** Holding "a" and "ArrowRight" steers right: right overrides left. */
  lemma RightOverridesLeft()
    ensures GetInput(KeyDown(KeyDown(New(), "a"), "ArrowRight")).steering == 1.0
  {
    assert Lower("ArrowRight") == "arrowright";
  }

  /** Every input component is one of the values the vehicle expects. */
  lemma InputRanges(k: KeyMap)
    ensures var c := GetInput(k);
      && (c.throttle == 0.0 || c.throttle == 1.0)
      && (c.brake == 0.0 || c.brake == 1.0)
      && (c.steering == -1.0 || c.steering == 0.0 || c.steering == 1.0)
  {
  }
}

=== FILE: track.dfy ===
/** The race track: a closed curve through fourteen control points, a road
    mesh of `segments` quads along it, two rows of barrier boxes with their
    colliders, and evenly spaced checkpoints. The curve is given as its
    sampling functions (position and unit tangent at a parameter in [0, 1]);
    the Catmull-Rom interpolation itself is not modelled. */
module Track {
  import opened Wrappers
  import opened Geometry

  datatype TrackConfig = TrackConfig(width: real, segments: nat, barrierHeight: real, checkpoints: nat)

  const Defaults := TrackConfig(8.0, 100, 2.0, 5)

  /** The caller's partial configuration; `None` is a missing key. */
  datatype TrackOverrides = TrackOverrides(
    width: Option<real>, segments: Option<nat>, barrierHeight: Option<real>, checkpoints: Option<nat>)

  /** The object spread of the defaults with the caller's fields. */
  function Merge(o: TrackOverrides): (c: TrackConfig)
    ensures c.width == o.width.GetOr(Defaults.width)
    ensures c.segments == o.segments.GetOr(Defaults.segments)
    ensures c.barrierHeight == o.barrierHeight.GetOr(Defaults.barrierHeight)
    ensures c.checkpoints == o.checkpoints.GetOr(Defaults.checkpoints)
  {
    TrackConfig(o.width.GetOr(Defaults.width), o.segments.GetOr(Defaults.segments),
      o.barrierHeight.GetOr(Defaults.barrierHeight), o.checkpoints.GetOr(Defaults.checkpoints))
  }

  /** No overrides give the defaults; a complete set gives itself back. */
  lemma MergeProperties(c: TrackConfig)
    ensures Merge(TrackOverrides(None, None, None, None)) == Defaults
    ensures Merge(TrackOverrides(Some(c.width), Some(c.segments), Some(c.barrierHeight), Some(c.checkpoints))) == c
  {
  }

  /** The control points of the closed circuit, in order. */
  const ControlPoints: seq<Vec3> := [
    Vec3(0.0, 0.0, 0.0), Vec3(30.0, 0.0, 0.0), Vec3(50.0, 0.0, 10.0), Vec3(60.0, 0.0, 30.0),
    Vec3(60.0, 0.0, 50.0), Vec3(50.0, 0.0, 70.0), Vec3(30.0, 0.0, 80.0), Vec3(0.0, 0.0, 80.0),
    Vec3(-30.0, 0.0, 80.0), Vec3(-50.0, 0.0, 70.0), Vec3(-60.0, 0.0, 50.0), Vec3(-60.0, 0.0, 30.0),
    Vec3(-50.0, 0.0, 10.0), Vec3(-30.0, 0.0, 0.0)]

  /** A curve as its sampling functions `getPoint` and `getTangent`. */
  datatype Curve = Curve(point: real -> Vec3, tangent: real -> Vec3)

  /** The curve passes through the control points at the parameters k/14
      and returns to its start at parameter 1. */
  predicate ThroughControlPoints(c: Curve)
  {
    && (forall k :: 0 <= k < |ControlPoints| ==> c.point(k as real / |ControlPoints| as real) == ControlPoints[k])
    && c.point(1.0) == c.point(0.0)
  }

  /** The parameter of sample `i` of `n` evenly spaced ones. */
  function Sample(i: nat, n: nat): (t: real)
    requires n > 0
    ensures i <= n ==> 0.0 <= t <= 1.0
    ensures i < n ==> t < 1.0
    ensures i == 0 ==> t == 0.0
  {
    i as real / n as real
  }

  /** Samples are strictly increasing from 0 to 1. */
  lemma SamplesOrdered(i: nat, j: nat, n: nat)
    requires n > 0 && i < j
    ensures Sample(i, n) < Sample(j, n)
    ensures Sample(0, n) == 0.0 && Sample(n, n) == 1.0
  {
    if Sample(j, n) <= Sample(i, n) {
      MulMonotone(n as real, Sample(j, n), Sample(i, n));
    }
    DivSelf(n as real);
  }

  /** The horizontal normal `(-t.z, 0, t.x)` of a direction. */
  function Perpendicular(t: Vec3): (p: Vec3)
    ensures p.y == 0.0 && Dot(p, t) == 0.0
    ensures LengthSq(p) == Sq(t.x) + Sq(t.z)
  {
    Vec3(-t.z, 0.0, t.x)
  }

  /** The unit normal of the curve at `t`. */
  function Across(c: Curve, m: Maths, t: real): Vec3
  {
    Normalize(m, Perpendicular(c.tangent(t)))
  }

  /** The edges half a width either side of `p` along the normal `n`. */
  function EdgePair(p: Vec3, n: Vec3, width: real): (r: (Vec3, Vec3))
    ensures Sub(r.0, p) == Scale(n, width / 2.0) && Sub(p, r.1) == Scale(n, width / 2.0)
  {
    (Add(p, Scale(n, width / 2.0)), Sub(p, Scale(n, width / 2.0)))
  }

  /** The road's edges at `t` as intended: half the width to each side of
      the curve along its unit normal. */
  function Edges(c: Curve, m: Maths, width: real, t: real): (r: (Vec3, Vec3))
    ensures Sub(r.0, c.point(t)) == Scale(Across(c, m, t), width / 2.0)
    ensures Sub(c.point(t), r.1) == Scale(Across(c, m, t), width / 2.0)
  {
    EdgePair(c.point(t), Across(c, m, t), width)
  }

  /** Edges built from a unit normal are centred on their point and exactly
      `width` apart. */
  lemma EdgePairSymmetric(p: Vec3, n: Vec3, width: real)
    requires LengthSq(n) == 1.0
    ensures var (l, r) := EdgePair(p, n, width);
      && Scale(Add(l, r), 0.5) == p
      && Sub(l, r) == Scale(n, width)
      && LengthSq(Sub(l, r)) == Sq(width)
  {
    var (l, r) := EdgePair(p, n, width);
    assert Sub(l, r) == Scale(n, width);
    LengthSqScale(n, width);
  }

  /** The edges as the mesh loop computes them: the normal is scaled in
      place by half the width for the left edge, and the already scaled
      normal is scaled again for the right edge. */
  function EdgePairAsWritten(p: Vec3, n: Vec3, width: real): (r: (Vec3, Vec3))
    ensures var h := width / 2.0;
      Sub(r.0, p) == Scale(n, h) && Sub(p, r.1) == Scale(n, h * h)
  {
    var half := Scale(n, width / 2.0);
    (Add(p, half), Sub(p, Scale(half, width / 2.0)))
  }

  /** The road's edges at `t` as the mesh loop computes them: half the
      width out on the first side, the square of half the width on the other. */
  function EdgesAsWritten(c: Curve, m: Maths, width: real, t: real): (r: (Vec3, Vec3))
    ensures var h := width / 2.0;
      && Sub(r.0, c.point(t)) == Scale(Across(c, m, t), h)
      && Sub(c.point(t), r.1) == Scale(Across(c, m, t), h * h)
  {
    EdgePairAsWritten(c.point(t), Across(c, m, t), width)
  }

  /** The road is centred on the curve and exactly `width` wide across it. */
  lemma EdgesSymmetric(c: Curve, m: Maths, width: real, t: real)
    requires var d := Perpendicular(c.tangent(t)); RootOf(m, LengthSq(d)) && LengthSq(d) != 0.0
    ensures var (l, r) := Edges(c, m, width, t);
      && Scale(Add(l, r), 0.5) == c.point(t)
      && Sub(l, r) == Scale(Across(c, m, t), width)
      && LengthSq(Sub(l, r)) == Sq(width)
  {
    NormalizeUnit(m, Perpendicular(c.tangent(t)));
    EdgePairSymmetric(c.point(t), Across(c, m, t), width);
  }

  /** As written, the left edge agrees with the intended one but the right
      edge lies `(width / 2)²` from the centre line instead of `width / 2`. */
  lemma RightEdgeOverscaled(c: Curve, m: Maths, width: real, t: real)
    ensures var h := width / 2.0;
      && EdgesAsWritten(c, m, width, t).0 == Edges(c, m, width, t).0
      && Sub(c.point(t), EdgesAsWritten(c, m, width, t).1) == Scale(Across(c, m, t), h * h)
  {
    PairOverscaled(c.point(t), Across(c, m, t), width);
  }

  lemma PairOverscaled(p: Vec3, n: Vec3, width: real)
    ensures var h := width / 2.0;
      && EdgePairAsWritten(p, n, width).0 == EdgePair(p, n, width).0
      && Sub(p, EdgePairAsWritten(p, n, width).1) == Scale(n, h * h)
  {
  }

  /** With the default width 8 the as-written edges are 4 units to the left
      and 16 to the right of the centre line, so the centre line is not the
      middle of the road, and the right edge runs 11.5 units beyond the
      right-hand barrier. */
  lemma DefaultWidthRoadOffCentre(c: Curve, m: Maths, cfg: TrackConfig, i: nat)
    requires cfg.segments > 0 && cfg.width == Defaults.width
    requires Across(c, m, Sample(i, cfg.segments)) != Zero
    ensures var t := Sample(i, cfg.segments);
      var (l, r) := EdgesAsWritten(c, m, cfg.width, t);
      && Sub(l, c.point(t)) == Scale(Across(c, m, t), 4.0)
      && Sub(c.point(t), r) == Scale(Across(c, m, t), 16.0)
      && Scale(Add(l, r), 0.5) != c.point(t)
      && Sub(BarrierEnds(c, m, cfg, -1.0, i).0, r) == Scale(Across(c, m, t), 11.5)
  {
    var t := Sample(i, cfg.segments);
    PairOffCentre(c.point(t), Across(c, m, t));
  }

  lemma PairOffCentre(p: Vec3, n: Vec3)
    requires n != Zero
    ensures var (l, r) := EdgePairAsWritten(p, n, 8.0);
      && Sub(l, p) == Scale(n, 4.0)
      && Sub(p, r) == Scale(n, 16.0)
      && Scale(Add(l, r), 0.5) != p
      && Sub(Add(p, Scale(n, (8.0 / 2.0 + 0.5) * -1.0)), r) == Scale(n, 11.5)
  {
    var (l, r) := EdgePairAsWritten(p, n, 8.0);
    assert Add(l, r) == Add(Scale(p, 2.0), Scale(n, -12.0));
  }

  /** The road geometry: two vertices per sample (left, right), their
      texture coordinates, and three vertex indices per triangle. */
  datatype Mesh = Mesh(vertices: seq<Vec3>, uvs: seq<(real, real)>, indices: seq<nat>)

  /** Vertex `k` of the road, at sample `k / 2`: for even `k` the edge half
      the width out along the normal, for odd `k` the edge the square of half
      the width out against it, as the source computes them. */
  function Vertex(c: Curve, m: Maths, cfg: TrackConfig, k: nat): Vec3
    requires cfg.segments > 0
  {
    var e := EdgesAsWritten(c, m, cfg.width, Sample(k / 2, cfg.segments));
    if k % 2 == 0 then e.0 else e.1
  }

  /** Where vertex `k` lies relative to the curve at its sample. */
  lemma VertexOffsets(c: Curve, m: Maths, cfg: TrackConfig, k: nat)
    requires cfg.segments > 0
    ensures var t := Sample(k / 2, cfg.segments);
      var h := cfg.width / 2.0;
      && (k % 2 == 0 ==> Sub(Vertex(c, m, cfg, k), c.point(t)) == Scale(Across(c, m, t), h))
      && (k % 2 == 1 ==> Sub(c.point(t), Vertex(c, m, cfg, k)) == Scale(Across(c, m, t), h * h))
  {
  }

  /** Texture coordinate `k`: u is 0 on the left edge and 1 on the right, v
      is the sample parameter. */
  function Uv(cfg: TrackConfig, k: nat): (r: (real, real))
    requires cfg.segments > 0
    ensures (r.0 == 0.0 <==> k % 2 == 0) && (r.0 == 1.0 <==> k % 2 == 1)
    ensures k < 2 * (cfg.segments + 1) ==> 0.0 <= r.1 <= 1.0
    ensures r.1 * cfg.segments as real == (k / 2) as real
  {
    (if k % 2 == 0 then 0.0 else 1.0, Sample(k / 2, cfg.segments))
  }

  /** Index `k`: quad `k / 6` is the triangles (l, r, l') and (r, r', l')
      between sample `k / 6` and the next one. */
  function Index(k: nat): (v: nat)
    ensures 2 * (k / 6) <= v <= 2 * (k / 6) + 3
  {
    var base := 2 * (k / 6);
    var corner := k % 6;
    if corner == 0 then base
    else if corner == 1 || corner == 3 then base + 1
    else if corner == 2 || corner == 5 then base + 2
    else base + 3
  }

  /** `createTrackMesh`: samples 0 to `segments` inclusive, one quad between
      each pair of consecutive samples. */
  method BuildMesh(c: Curve, m: Maths, cfg: TrackConfig) returns (mesh: Mesh)
    requires cfg.segments > 0
    ensures |mesh.vertices| == |mesh.uvs| == 2 * (cfg.segments + 1)
    ensures |mesh.indices| == 6 * cfg.segments
    ensures forall k :: 0 <= k < |mesh.vertices| ==> mesh.vertices[k] == Vertex(c, m, cfg, k)
    ensures forall k :: 0 <= k < |mesh.uvs| ==> mesh.uvs[k] == Uv(cfg, k)
    ensures forall k :: 0 <= k < |mesh.indices| ==> mesh.indices[k] == Index(k)
    ensures forall k :: 0 <= k < |mesh.indices| ==> mesh.indices[k] < |mesh.vertices|
  {
    var n := cfg.segments;
    var vertices: seq<Vec3> := [];
    var uvs: seq<(real, real)> := [];
    var indices: seq<nat> := [];
    var i := 0;
    while i <= n
      invariant 0 <= i <= n + 1
      invariant |vertices| == |uvs| == 2 * i
      invariant |indices| == 6 * (if i <= n then i else n)
      invariant forall k :: 0 <= k < |vertices| ==> vertices[k] == Vertex(c, m, cfg, k)
      invariant forall k :: 0 <= k < |uvs| ==> uvs[k] == Uv(cfg, k)
      invariant forall k :: 0 <= k < |indices| ==> indices[k] == Index(k)
    {
      var t := i as real / n as real;
      var point := c.point(t);
      var perpendicular := Normalize(m, Perpendicular(c.tangent(t)));
      // `multiplyScalar` scales the normal in place, so the right edge
      // scales the already scaled normal a second time
      perpendicular := Scale(perpendicular, cfg.width / 2.0);
      var left := Add(point, perpendicular);
      perpendicular := Scale(perpendicular, cfg.width / 2.0);
      var right := Sub(point, perpendicular);
      AppendSample(c, m, cfg, vertices, uvs, i, left, right);
      vertices := vertices + [left, right];
      uvs := uvs + [(0.0, t), (1.0, t)];
      if i < n {
        var idx := i * 2;
        AppendQuad(indices, i);
        indices := indices + [idx, idx + 1, idx + 2, idx + 1, idx + 3, idx + 2];
      }
      i := i + 1;
    }
    IndicesInRange(n, indices);
    mesh := Mesh(vertices, uvs, indices);
  }

  /** Appending sample `i`'s two edges and uvs to the first `i` samples'
      gives the first `i + 1` samples'. */
  lemma AppendSample(c: Curve, m: Maths, cfg: TrackConfig, vertices: seq<Vec3>, uvs: seq<(real, real)>,
                     i: nat, left: Vec3, right: Vec3)
    requires cfg.segments > 0
    requires |vertices| == |uvs| == 2 * i
    requires forall k :: 0 <= k < |vertices| ==> vertices[k] == Vertex(c, m, cfg, k)
    requires forall k :: 0 <= k < |uvs| ==> uvs[k] == Uv(cfg, k)
    requires (left, right) == EdgesAsWritten(c, m, cfg.width, Sample(i, cfg.segments))
    ensures var vs := vertices + [left, right];
      forall k :: 0 <= k < |vs| ==> vs[k] == Vertex(c, m, cfg, k)
    ensures var t := Sample(i, cfg.segments);
      var us := uvs + [(0.0, t), (1.0, t)];
      forall k :: 0 <= k < |us| ==> us[k] == Uv(cfg, k)
  {
    assert (2 * i) / 2 == i && (2 * i + 1) / 2 == i;
    assert Vertex(c, m, cfg, 2 * i) == left && Vertex(c, m, cfg, 2 * i + 1) == right;
    assert Uv(cfg, 2 * i) == (0.0, Sample(i, cfg.segments));
    assert Uv(cfg, 2 * i + 1) == (1.0, Sample(i, cfg.segments));
  }

  /** Appending the six indices of quad `i` to the first `i` quads' indices
      gives the first `i + 1` quads' indices. */
  lemma AppendQuad(indices: seq<nat>, i: nat)
    requires |indices| == 6 * i
    requires forall k :: 0 <= k < |indices| ==> indices[k] == Index(k)
    ensures var b := 2 * i;
      var r := indices + [b, b + 1, b + 2, b + 1, b + 3, b + 2];
      forall k :: 0 <= k < |r| ==> r[k] == Index(k)
  {
    var b := 2 * i;
    var r := indices + [b, b + 1, b + 2, b + 1, b + 3, b + 2];
    forall k | 0 <= k < |r|
      ensures r[k] == Index(k)
    {
      if k >= 6 * i {
        assert k / 6 == i && k % 6 == k - 6 * i;
      }
    }
  }

  lemma IndicesInRange(n: nat, indices: seq<nat>)
    requires |indices| == 6 * n
    requires forall k :: 0 <= k < |indices| ==> indices[k] == Index(k)
    ensures forall k :: 0 <= k < |indices| ==> indices[k] < 2 * (n + 1)
  {
    forall k | 0 <= k < |indices|
      ensures indices[k] < 2 * (n + 1)
    {
      assert k / 6 < n;
    }
  }

  /** Every quad joins one sample's two vertices to the next sample's, and
      its two triangles share the diagonal from the right vertex of the
      first sample to the left vertex of the next. */
  lemma QuadsJoinConsecutiveSamples(q: nat)
    ensures var k := 6 * q;
      && Index(k) == 2 * q && Index(k + 1) == 2 * q + 1 && Index(k + 2) == 2 * q + 2
      && Index(k + 3) == 2 * q + 1 && Index(k + 4) == 2 * q + 3 && Index(k + 5) == 2 * q + 2
  {
  }

  /** A barrier box: its size (thickness, height, length), centre and yaw. */
  datatype Box = Box(size: Vec3, position: Vec3, yaw: real)

  /** The end points of the barrier of `side` (-1 or 1) along segment `i`:
      the segment's end points pushed half a width plus half a metre along
      the normal at its start, against it for -1 and with it for 1. */
  function BarrierEnds(c: Curve, m: Maths, cfg: TrackConfig, side: real, i: nat): (r: (Vec3, Vec3))
    requires cfg.segments > 0
    ensures Sub(r.0, c.point(Sample(i, cfg.segments))) == Sub(r.1, c.point(Sample(i + 1, cfg.segments)))
  {
    var n := cfg.segments;
    var t1 := Sample(i, n);
    var offset := Scale(Across(c, m, t1), (cfg.width / 2.0 + 0.5) * side);
    (Add(c.point(t1), offset), Add(c.point(Sample(i + 1, n)), offset))
  }

  /** The barrier box spanning its end points: 0.5 thick, standing on the
      ground, as long as the distance between the ends, turned along them. */
  function Barrier(c: Curve, m: Maths, cfg: TrackConfig, side: real, i: nat): (b: Box)
    requires cfg.segments > 0
    ensures var (p1, p2) := BarrierEnds(c, m, cfg, side, i);
      && b.size == Vec3(0.5, cfg.barrierHeight, Distance(m, p1, p2))
      && b.position.y - b.size.y / 2.0 == 0.0
      && Scale(Vec3(b.position.x, 0.0, b.position.z), 2.0) == Vec3(p1.x + p2.x, 0.0, p1.z + p2.z)
      && b.yaw == m.atan2(p2.x - p1.x, p2.z - p1.z)
  {
    var (p1, p2) := BarrierEnds(c, m, cfg, side, i);
    var middle := Scale(Add(p1, p2), 0.5);
    Box(Vec3(0.5, cfg.barrierHeight, Distance(m, p1, p2)), Vec3(middle.x, cfg.barrierHeight / 2.0, middle.z),
        m.atan2(p2.x - p1.x, p2.z - p1.z))
  }

  /** Points pushed out by `k` along the normal on either side lie half a
      metre beyond edges half a width `w` either side, when `k` is `w/2 + 0.5`. */
  lemma OffsetBeyondEdges(p: Vec3, n: Vec3, w: real)
    ensures var k := w / 2.0 + 0.5;
      var (l, r) := EdgePair(p, n, w);
      && Sub(Add(p, Scale(n, k * 1.0)), l) == Scale(n, 0.5)
      && Sub(r, Add(p, Scale(n, k * -1.0))) == Scale(n, 0.5)
  {
  }

  /** Each barrier row runs half a metre outside the road edge on its side. */
  lemma BarriersOutsideRoad(c: Curve, m: Maths, cfg: TrackConfig, i: nat)
    requires cfg.segments > 0
    ensures var t := Sample(i, cfg.segments);
      var (l, r) := Edges(c, m, cfg.width, t);
      && Sub(BarrierEnds(c, m, cfg, 1.0, i).0, l) == Scale(Across(c, m, t), 0.5)
      && Sub(r, BarrierEnds(c, m, cfg, -1.0, i).0) == Scale(Across(c, m, t), 0.5)
  {
    var t := Sample(i, cfg.segments);
    OffsetBeyondEdges(c.point(t), Across(c, m, t), cfg.width);
  }

  /** `createBarriers`: every segment's barrier on side -1, then on side 1. */
  function BuildBarriers(c: Curve, m: Maths, cfg: TrackConfig): (bs: seq<Box>)
    ensures |bs| == 2 * cfg.segments
    ensures forall k :: 0 <= k < |bs| ==>
      bs[k] == Barrier(c, m, cfg, if k < cfg.segments then -1.0 else 1.0, k % cfg.segments)
  {
    var n := cfg.segments;
    seq(2 * n, k requires 0 <= k < 2 * n => Barrier(c, m, cfg, if k < n then -1.0 else 1.0, k % n))
  }

  /** The two barriers of a segment are as long as each other, turned the
      same way, and placed symmetrically about the segment's centre line. */
  lemma BarrierRowsParallel(c: Curve, m: Maths, cfg: TrackConfig, i: nat)
    requires cfg.segments > 0
    ensures var l := Barrier(c, m, cfg, 1.0, i);
      var r := Barrier(c, m, cfg, -1.0, i);
      var q1 := c.point(Sample(i, cfg.segments));
      var q2 := c.point(Sample(i + 1, cfg.segments));
      && l.size == r.size && l.yaw == r.yaw
      && l.position.x + r.position.x == q1.x + q2.x
      && l.position.z + r.position.z == q1.z + q2.z
  {
    var t := Sample(i, cfg.segments);
    var q1 := c.point(t);
    var q2 := c.point(Sample(i + 1, cfg.segments));
    MirroredEnds(q1, q2, Across(c, m, t), cfg.width / 2.0 + 0.5);
  }

  /** Two points pushed the same distance along `n` and against it: both
      pairs span the same vector, and each pair of partners is centred on its
      original point. */
  lemma MirroredEnds(q1: Vec3, q2: Vec3, n: Vec3, k: real)
    ensures var a1 := Add(q1, Scale(n, k * 1.0));
      var a2 := Add(q2, Scale(n, k * 1.0));
      var b1 := Add(q1, Scale(n, k * -1.0));
      var b2 := Add(q2, Scale(n, k * -1.0));
      && Sub(a2, a1) == Sub(b2, b1) && Sub(a1, a2) == Sub(b1, b2)
      && a1.x + b1.x == q1.x * 2.0 && a2.x + b2.x == q2.x * 2.0
      && a1.z + b1.z == q1.z * 2.0 && a2.z + b2.z == q2.z * 2.0
  {
  }

  /** A fixed (bodiless) cuboid collider. */
  datatype Collider = Collider(halfExtents: Vec3, translation: Vec3, rotation: Quat, restitution: real, friction: real)

  /** `createPhysics`: one collider per barrier, half its size in each
      direction, at its centre, turned by its yaw. */
  function BuildColliders(bs: seq<Box>, m: Maths): (cs: seq<Collider>)
    ensures |cs| == |bs|
    ensures forall k :: 0 <= k < |cs| ==>
      && Scale(cs[k].halfExtents, 2.0) == bs[k].size
      && cs[k].translation == bs[k].position
      && cs[k].rotation == m.yawQuat(bs[k].yaw)
      && cs[k].restitution == 0.5 && cs[k].friction == 0.3
  {
    seq(|bs|, k requires 0 <= k < |bs| =>
      Collider(Vec3(bs[k].size.x / 2.0, bs[k].size.y / 2.0, bs[k].size.z / 2.0), bs[k].position,
               m.yawQuat(bs[k].yaw), 0.5, 0.3))
  }

  /** `createCheckpoints`: the curve at evenly spaced parameters in [0, 1). */
  function BuildCheckpoints(c: Curve, cfg: TrackConfig): (ps: seq<Vec3>)
    ensures |ps| == cfg.checkpoints
    ensures forall i :: 0 <= i < |ps| ==> ps[i] == c.point(Sample(i, cfg.checkpoints))
  {
    seq(cfg.checkpoints, i requires 0 <= i < cfg.checkpoints => c.point(Sample(i, cfg.checkpoints)))
  }

  /** `getStartPosition`: the start of the curve, two units up. */
  function StartPosition(c: Curve): (p: Vec3)
    ensures p.y == 2.0 && p.x == c.point(0.0).x && p.z == c.point(0.0).z
  {
    var s := c.point(0.0);
    Vec3(s.x, 2.0, s.z)
  }

  /** `getStartRotation`: the yaw of the curve's start tangent. */
  function StartRotation(c: Curve, m: Maths): (yaw: real)
    ensures yaw == m.atan2(c.tangent(0.0).x, c.tangent(0.0).z)
  {
    m.atan2(c.tangent(0.0).x, c.tangent(0.0).z)
  }

  /** The circuit's curve starts at the origin, its first control point. */
  lemma CurveStartsAtOrigin(c: Curve)
    requires ThroughControlPoints(c)
    ensures c.point(0.0) == Zero
  {
    assert c.point(0 as real / |ControlPoints| as real) == ControlPoints[0];
  }

  /** The car starts above the origin, the first control point, which is
      also the first checkpoint; the first row's midpoint lies (h - h*h)/2
      along the normal from it, with h half the width (see
      `FirstRowOffCentre`). */
  lemma StartOnFirstCheckpoint(c: Curve, m: Maths, cfg: TrackConfig)
    requires ThroughControlPoints(c)
    ensures StartPosition(c) == Vec3(0.0, 2.0, 0.0)
    ensures cfg.checkpoints > 0 ==> BuildCheckpoints(c, cfg)[0] == Zero
    ensures cfg.segments > 0 ==> var h := cfg.width / 2.0;
      Scale(Add(Vertex(c, m, cfg, 0), Vertex(c, m, cfg, 1)), 0.5) == Scale(Across(c, m, 0.0), (h - h * h) / 2.0)
  {
    CurveStartsAtOrigin(c);
    if cfg.checkpoints > 0 {
      assert Sample(0, cfg.checkpoints) == 0.0;
    }
    if cfg.segments > 0 {
      FirstRowOffCentre(c, m, cfg);
    }
  }

  /** The midpoint of the first row of road vertices lies `(h - h²) / 2`
      along the normal from the curve's start, `h` being half the width:
      on the curve only for widths 0 and 2, and 6 units from it at the
      default width 8. */
  lemma FirstRowOffCentre(c: Curve, m: Maths, cfg: TrackConfig)
    requires cfg.segments > 0
    ensures var h := cfg.width / 2.0;
      Scale(Add(Vertex(c, m, cfg, 0), Vertex(c, m, cfg, 1)), 0.5)
        == Add(c.point(0.0), Scale(Across(c, m, 0.0), (h - h * h) / 2.0))
  {
    RowEdges(c, m, cfg, 0);
    EdgesMidpoint(c, m, cfg.width, Sample(0, cfg.segments));
  }

  /** Vertices `2i` and `2i + 1` are the two edges at sample `i`. */
  lemma RowEdges(c: Curve, m: Maths, cfg: TrackConfig, i: nat)
    requires cfg.segments > 0
    ensures (Vertex(c, m, cfg, 2 * i), Vertex(c, m, cfg, 2 * i + 1))
         == EdgesAsWritten(c, m, cfg.width, Sample(i, cfg.segments))
  {
    assert (2 * i) / 2 == i && (2 * i + 1) / 2 == i;
  }

  lemma EdgesMidpoint(c: Curve, m: Maths, width: real, t: real)
    ensures var h := width / 2.0;
      var (l, r) := EdgesAsWritten(c, m, width, t);
      Scale(Add(l, r), 0.5) == Add(c.point(t), Scale(Across(c, m, t), (h - h * h) / 2.0))
  {
    PairMidpoint(c.point(t), Across(c, m, t), width);
  }

  lemma PairMidpoint(p: Vec3, n: Vec3, width: real)
    ensures var h := width / 2.0;
      var (l, r) := EdgePairAsWritten(p, n, width);
      Scale(Add(l, r), 0.5) == Add(p, Scale(n, (h - h * h) / 2.0))
  {
    var h := width / 2.0;
    var (l, r) := EdgePairAsWritten(p, n, width);
    Midpoint(p, n, l, r, h, h * h);
  }

  /** Points `a` along and `b` against `n` from `p` have their midpoint
      `(a - b) / 2` along `n` from `p`. */
  lemma Midpoint(p: Vec3, n: Vec3, l: Vec3, r: Vec3, a: real, b: real)
    requires Sub(l, p) == Scale(n, a) && Sub(p, r) == Scale(n, b)
    ensures Scale(Add(l, r), 0.5) == Add(p, Scale(n, (a - b) / 2.0))
  {
  }

  /** The track after construction. */
  datatype Track = Track(
    config: TrackConfig,
    curve: Curve,
    mesh: Mesh,
    barriers: seq<Box>,
    colliders: seq<Collider>,
    checkpoints: seq<Vec3>)

  /** The constructor: merged configuration, then mesh, barriers,
      checkpoints and colliders, in that order. */
  method Create(c: Curve, m: Maths, o: TrackOverrides) returns (t: Track)
    requires Merge(o).segments > 0
    ensures t.config == Merge(o) && t.curve == c
    ensures |t.mesh.vertices| == |t.mesh.uvs| == 2 * (t.config.segments + 1)
    ensures |t.mesh.indices| == 6 * t.config.segments
    ensures forall k :: 0 <= k < |t.mesh.vertices| ==> t.mesh.vertices[k] == Vertex(c, m, t.config, k)
    ensures forall k :: 0 <= k < |t.mesh.uvs| ==> t.mesh.uvs[k] == Uv(t.config, k)
    ensures forall k :: 0 <= k < |t.mesh.indices| ==> t.mesh.indices[k] == Index(k)
    ensures t.barriers == BuildBarriers(c, m, t.config)
    ensures t.colliders == BuildColliders(t.barriers, m)
    ensures t.checkpoints == BuildCheckpoints(c, t.config)
  {
    var cfg := Merge(o);
    var mesh := BuildMesh(c, m, cfg);
    var barriers := BuildBarriers(c, m, cfg);
    var checkpoints := BuildCheckpoints(c, cfg);
    t := Track(cfg, c, mesh, barriers, BuildColliders(barriers, m), checkpoints);
  }
}

=== FILE: vehicle.dfy ===
/** The car: a configuration with defaults, the physics body it asks for,
    four wheels, and the per-frame driving logic that turns the driver's
    controls and the body's current motion into forces, a torque and a
    speed limit for the physics engine. The rigid-body simulation itself is
    outside the model: `Update` reads the body's pose and velocity as a
    `BodyReading` and answers with the commands it issues. */
module Vehicle {
  import opened Wrappers
  import opened Geometry
  import InputController

  datatype ChassisSize = ChassisSize(width: real, height: real, length: real)

  datatype VehicleConfig = VehicleConfig(
    mass: real,
    chassisSize: ChassisSize,
    wheelRadius: real,
    wheelWidth: real,
    wheelBase: real,     // distance between the front and the rear axle
    trackWidth: real,    // distance between the left and the right wheel
    maxSpeed: real,
    acceleration: real,
    braking: real,
    steering: real)      // the largest front-wheel angle

  const Defaults := VehicleConfig(1200.0, ChassisSize(1.8, 0.6, 4.0), 0.4, 0.3, 2.5, 1.6, 50.0, 3000.0, 5000.0, 0.8)

  /** The caller's partial configuration: a present key replaces the default
      field, the chassis size as a whole; `None` is a missing key. */
  datatype Overrides = Overrides(
    mass: Option<real>,
    chassisSize: Option<ChassisSize>,
    wheelRadius: Option<real>,
    wheelWidth: Option<real>,
    wheelBase: Option<real>,
    trackWidth: Option<real>,
    maxSpeed: Option<real>,
    acceleration: Option<real>,
    braking: Option<real>,
    steering: Option<real>)

  const NoOverrides := Overrides(None, None, None, None, None, None, None, None, None, None)

  /** The object spread of the defaults with the caller's fields. */
  function Merge(o: Overrides): (c: VehicleConfig)
    ensures c.mass == o.mass.GetOr(Defaults.mass)
    ensures c.chassisSize == o.chassisSize.GetOr(Defaults.chassisSize)
    ensures c.wheelRadius == o.wheelRadius.GetOr(Defaults.wheelRadius)
    ensures c.wheelWidth == o.wheelWidth.GetOr(Defaults.wheelWidth)
    ensures c.wheelBase == o.wheelBase.GetOr(Defaults.wheelBase)
    ensures c.trackWidth == o.trackWidth.GetOr(Defaults.trackWidth)
    ensures c.maxSpeed == o.maxSpeed.GetOr(Defaults.maxSpeed)
    ensures c.acceleration == o.acceleration.GetOr(Defaults.acceleration)
    ensures c.braking == o.braking.GetOr(Defaults.braking)
    ensures c.steering == o.steering.GetOr(Defaults.steering)
  {
    VehicleConfig(
      o.mass.GetOr(Defaults.mass), o.chassisSize.GetOr(Defaults.chassisSize),
      o.wheelRadius.GetOr(Defaults.wheelRadius), o.wheelWidth.GetOr(Defaults.wheelWidth),
      o.wheelBase.GetOr(Defaults.wheelBase), o.trackWidth.GetOr(Defaults.trackWidth),
      o.maxSpeed.GetOr(Defaults.maxSpeed), o.acceleration.GetOr(Defaults.acceleration),
      o.braking.GetOr(Defaults.braking), o.steering.GetOr(Defaults.steering))
  }

  /** The overrides that give every field of `c`. */
  function Full(c: VehicleConfig): Overrides
  {
    Overrides(Some(c.mass), Some(c.chassisSize), Some(c.wheelRadius), Some(c.wheelWidth),
      Some(c.wheelBase), Some(c.trackWidth), Some(c.maxSpeed), Some(c.acceleration),
      Some(c.braking), Some(c.steering))
  }

  /** No overrides give the defaults, a complete set gives itself back, and
      overriding only the top speed changes nothing else. */
  lemma MergeProperties(c: VehicleConfig, top: real)
    ensures Merge(NoOverrides) == Defaults
    ensures Merge(Full(c)) == c
    ensures Merge(NoOverrides.(maxSpeed := Some(top))) == Defaults.(maxSpeed := top)
  {
  }

  /** The rigid body and chassis collider the vehicle asks the physics world for. */
  datatype BodySpec = BodySpec(
    translation: Vec3,
    canSleep: bool,
    halfExtents: Vec3,
    mass: real,
    restitution: real,
    friction: real,
    linearDamping: real,
    angularDamping: real)

  /** `createPhysicsBody`: a box collider half the chassis size in each
      direction, at the start position, never put to sleep. */
  function PhysicsBody(c: VehicleConfig, position: Vec3): (b: BodySpec)
    ensures Scale(b.halfExtents, 2.0) == Vec3(c.chassisSize.width, c.chassisSize.height, c.chassisSize.length)
    ensures b.translation == position && !b.canSleep && b.mass == c.mass
    ensures b.restitution == 0.1 && b.friction == 0.8
    ensures b.linearDamping == 0.5 && b.angularDamping == 1.0
  {
    BodySpec(position, false,
      Vec3(c.chassisSize.width / 2.0, c.chassisSize.height / 2.0, c.chassisSize.length / 2.0),
      c.mass, 0.1, 0.8, 0.5, 1.0)
  }

  /** A wheel: its mount point in the chassis frame, whether it steers, and
      its mesh's steering (about y) and rolling (about x) angles. */
  datatype Wheel = Wheel(mount: Vec3, isFront: bool, steer: real, roll: real)

  /** `createWheels`: front-left, front-right, rear-left, rear-right. */
  function CreateWheels(c: VehicleConfig): (w: seq<Wheel>)
    ensures |w| == 4
    ensures forall i :: 0 <= i < 4 ==> (w[i].isFront <==> i < 2)
    ensures forall i :: 0 <= i < 4 ==> w[i].mount.y == 0.0 && w[i].steer == 0.0 && w[i].roll == 0.0
    ensures forall i :: 0 <= i < 4 ==> w[i].mount.z == (if w[i].isFront then c.wheelBase / 2.0 else -c.wheelBase / 2.0)
    ensures forall i :: 0 <= i < 4 ==> w[i].mount.x == (if i % 2 == 0 then -c.trackWidth / 2.0 else c.trackWidth / 2.0)
  {
    var x := c.trackWidth / 2.0;
    var z := c.wheelBase / 2.0;
    [Wheel(Vec3(-x, 0.0, z), true, 0.0, 0.0), Wheel(Vec3(x, 0.0, z), true, 0.0, 0.0),
     Wheel(Vec3(-x, 0.0, -z), false, 0.0, 0.0), Wheel(Vec3(x, 0.0, -z), false, 0.0, 0.0)]
  }

  /** The wheels sit symmetrically about the chassis centre: mirrored left to
      right, and front to back. */
  lemma WheelsSymmetric(c: VehicleConfig)
    ensures var w := CreateWheels(c);
      && w[0].mount.x == -w[1].mount.x && w[2].mount.x == -w[3].mount.x
      && w[0].mount.z == -w[2].mount.z && w[1].mount.z == -w[3].mount.z
      && w[1].mount.x - w[0].mount.x == c.trackWidth
      && w[0].mount.z - w[2].mount.z == c.wheelBase
  {
  }

  datatype Vehicle = Vehicle(
    config: VehicleConfig,
    wheels: seq<Wheel>,
    position: Vec3,       // the chassis group's position
    orientation: Quat,    // the chassis group's quaternion
    currentSpeed: real,
    currentSteering: real)

  /** The constructor: merged configuration, chassis at the start position,
      four wheels, at rest and straight ahead. */
  function Create(position: Vec3, o: Overrides): (v: Vehicle)
    ensures v.config == Merge(o) && v.wheels == CreateWheels(v.config)
    ensures v.position == position && v.orientation == Identity
    ensures v.currentSpeed == 0.0 && v.currentSteering == 0.0
  {
    var c := Merge(o);
    Vehicle(c, CreateWheels(c), position, Identity, 0.0, 0.0)
  }

  /** `getPosition` */
  function GetPosition(v: Vehicle): (p: Vec3)
    ensures p == v.position
  {
    v.position
  }

  /** `getSpeed` */
  function GetSpeed(v: Vehicle): (s: real)
    ensures s == v.currentSpeed
  {
    v.currentSpeed
  }

  /** What the physics body reports at the start of a frame. */
  datatype BodyReading = BodyReading(translation: Vec3, rotation: Quat, linvel: Vec3)

  /** What a frame asks of the physics body, by purpose; `Commands` gives
      the order of the calls. */
  datatype Actuation = Actuation(
    drive: Option<Vec3>,    // throttle force
    brake: Option<Vec3>,    // braking or reversing force
    torque: Option<Vec3>,   // steering torque
    grip: Option<Vec3>,     // lateral grip force
    limit: Option<Vec3>)    // clamped linear velocity

  datatype BodyCommand = AddForce(force: Vec3) | AddTorque(torque: Vec3) | SetLinvel(velocity: Vec3)

  function AsList<T>(o: Option<T>): (s: seq<T>)
    ensures |s| <= 1 && (o.Some? <==> |s| == 1) && (o.Some? ==> s[0] == o.value)
  {
    if o.Some? then [o.value] else []
  }

  /** The calls in source order: throttle, brake, torque, grip, limit. */
  function Commands(a: Actuation): (s: seq<BodyCommand>)
    ensures |s| == |AsList(a.drive)| + |AsList(a.brake)| + |AsList(a.torque)| + |AsList(a.grip)| + |AsList(a.limit)|
    ensures a.limit.Some? ==> s[|s| - 1] == SetLinvel(a.limit.value)
    ensures a.drive.Some? ==> s[0] == AddForce(a.drive.value)
  {
    seq(|AsList(a.drive)|, i requires 0 <= i < |AsList(a.drive)| => AddForce(AsList(a.drive)[i]))
    + seq(|AsList(a.brake)|, i requires 0 <= i < |AsList(a.brake)| => AddForce(AsList(a.brake)[i]))
    + seq(|AsList(a.torque)|, i requires 0 <= i < |AsList(a.torque)| => AddTorque(AsList(a.torque)[i]))
    + seq(|AsList(a.grip)|, i requires 0 <= i < |AsList(a.grip)| => AddForce(AsList(a.grip)[i]))
    + seq(|AsList(a.limit)|, i requires 0 <= i < |AsList(a.limit)| => SetLinvel(AsList(a.limit)[i]))
  }

  const MaxFrameTime := 0.1
  const SteeringRate := 8.0

  /** The frame time the vehicle works with: capped at `MaxFrameTime` so a
      long pause cannot produce one huge step. */
  function EffectiveDt(deltaTime: real): (dt: real)
    ensures dt <= MaxFrameTime
    ensures deltaTime <= MaxFrameTime ==> dt == deltaTime
    ensures deltaTime > MaxFrameTime ==> dt == MaxFrameTime
  {
    if deltaTime <= MaxFrameTime then deltaTime else MaxFrameTime
  }

  /** `THREE.MathUtils.lerp` */
  function MathLerp(x: real, y: real, t: real): real
  {
    (1.0 - t) * x + t * y
  }

  /** The chassis's forward (local +z) and right (local +x) directions. */
  function Forward(m: Maths, q: Quat): Vec3
  {
    m.applyQuat(q, Vec3(0.0, 0.0, 1.0))
  }

  function Right(m: Maths, q: Quat): Vec3
  {
    m.applyQuat(q, Vec3(1.0, 0.0, 0.0))
  }

  /** The forces, torque and velocity limit of one frame. */
  function Actuate(c: VehicleConfig, input: InputController.Controls, body: BodyReading, m: Maths): (a: Actuation)
    ensures a.drive.Some? <==> input.throttle > 0.0
    ensures a.brake.Some? <==> input.brake > 0.0
    ensures a.torque.Some? <==> Turning(input, Dot(body.linvel, Forward(m, body.rotation)))
    ensures a.grip.Some? <==> a.torque.Some?
    ensures a.limit.Some? <==> Length(m, body.linvel) > c.maxSpeed
  {
    var fwd := Forward(m, body.rotation);
    var fs := Dot(body.linvel, fwd);
    Actuation(
      Drive(c, input, fwd),
      Brake(c, input, fwd, fs),
      Torque(input, fs),
      Grip(input, fs, body.linvel, Right(m, body.rotation)),
      Limit(c, body.linvel, m))
  }

  /** The throttle force: along the forward direction, in proportion to the
      throttle, and only while the throttle is open. */
  function Drive(c: VehicleConfig, input: InputController.Controls, fwd: Vec3): (r: Option<Vec3>)
    ensures r.Some? <==> input.throttle > 0.0
    ensures r.Some? ==> r.value == Scale(fwd, c.acceleration * input.throttle)
  {
    if input.throttle > 0.0 then Some(Scale(fwd, c.acceleration * input.throttle)) else None
  }

  /** The brake force, issued exactly while the brake is pressed: braking
      while the forward speed `fs` is above 0.5, otherwise (0.5 included) a
      reverse drive at half the acceleration. */
  function Brake(c: VehicleConfig, input: InputController.Controls, fwd: Vec3, fs: real): (r: Option<Vec3>)
    ensures r.Some? <==> input.brake > 0.0
    ensures r.Some? && fs > 0.5 ==> r.value == Scale(fwd, -c.braking * input.brake)
    ensures r.Some? && fs <= 0.5 ==> r.value == Scale(fwd, -c.acceleration * 0.5 * input.brake)
  {
    if !(input.brake > 0.0) then None
    else if fs > 0.5 then Some(Scale(fwd, -c.braking * input.brake))
    else Some(Scale(fwd, -c.acceleration * 0.5 * input.brake))
  }

  /** The car turns only while the wheel is turned and the car is moving. */
  predicate Turning(input: InputController.Controls, fs: real)
  {
    Abs(input.steering) > 0.01 && Abs(fs) > 1.0
  }

  /** The steering torque: about the vertical axis, in proportion to the
      steering and to the forward speed's magnitude, and only while turning. */
  function Torque(input: InputController.Controls, fs: real): (r: Option<Vec3>)
    ensures r.Some? <==> Abs(input.steering) > 0.01 && Abs(fs) > 1.0
    ensures r.Some? ==> r.value.x == 0.0 && r.value.z == 0.0 && r.value.y == input.steering * Abs(fs) * 100.0
  {
    if Turning(input, fs) then Some(Vec3(0.0, input.steering * Abs(fs) * 100.0, 0.0)) else None
  }

  /** The lateral grip force: along the right direction against the sideways
      part of the velocity, and only while turning. */
  function Grip(input: InputController.Controls, fs: real, velocity: Vec3, right: Vec3): (r: Option<Vec3>)
    ensures r.Some? <==> Abs(input.steering) > 0.01 && Abs(fs) > 1.0
    ensures r.Some? ==> r.value == Scale(right, -Dot(velocity, right) * 50.0)
  {
    if Turning(input, fs) then Some(Scale(right, -Dot(velocity, right) * 50.0)) else None
  }

  /** The clamped velocity, issued exactly while the speed is above the
      maximum: the direction of travel scaled to `maxSpeed` in x and z, the
      vertical component kept. */
  function Limit(c: VehicleConfig, velocity: Vec3, m: Maths): (r: Option<Vec3>)
    ensures r.Some? <==> Length(m, velocity) > c.maxSpeed
    ensures r.Some? ==> r.value.y == velocity.y
    ensures r.Some? && Length(m, velocity) != 0.0 ==>
      && r.value.x == velocity.x * c.maxSpeed / Length(m, velocity)
      && r.value.z == velocity.z * c.maxSpeed / Length(m, velocity)
  {
    if Length(m, velocity) > c.maxSpeed then
      var limited := Scale(Normalize(m, velocity), c.maxSpeed);
      ClampedComponent(velocity.x, Length(m, velocity), c.maxSpeed);
      ClampedComponent(velocity.z, Length(m, velocity), c.maxSpeed);
      Some(Vec3(limited.x, velocity.y, limited.z))
    else None
  }

  lemma ClampedComponent(a: real, len: real, k: real)
    ensures len != 0.0 ==> a * (1.0 / (if len == 0.0 then 1.0 else len)) * k == a * k / len
  {
  }

  /** The wheels after a frame: front wheels take the steering angle, and
      every wheel rolls on by `spin`. */
  function TurnWheels(wheels: seq<Wheel>, steering: real, spin: real): (r: seq<Wheel>)
    ensures |r| == |wheels|
    ensures forall i :: 0 <= i < |r| ==>
      && r[i].mount == wheels[i].mount && r[i].isFront == wheels[i].isFront
      && r[i].steer == (if r[i].isFront then steering else wheels[i].steer)
      && r[i].roll == wheels[i].roll + spin
  {
    seq(|wheels|, i requires 0 <= i < |wheels| =>
      var w := wheels[i];
      w.(steer := if w.isFront then steering else w.steer, roll := w.roll + spin))
  }

  /** `update`: one frame of driving. */
  function Update(v: Vehicle, deltaTime: real, input: InputController.Controls, body: BodyReading, m: Maths)
    : (r: (Vehicle, seq<BodyCommand>))
    ensures var dt := EffectiveDt(deltaTime);
      var fs := Dot(body.linvel, Forward(m, body.rotation));
      var w := r.0.wheels;
      && r.0.config == v.config
      && r.0.currentSteering == Steer(v.currentSteering, input.steering * v.config.steering, deltaTime)
      && r.0.currentSpeed == Length(m, body.linvel)
      && r.0.position == body.translation && r.0.orientation == body.rotation
      && |w| == |v.wheels|
      && (forall i :: 0 <= i < |w| ==>
            && w[i].mount == v.wheels[i].mount && w[i].isFront == v.wheels[i].isFront
            && w[i].steer == (if w[i].isFront then r.0.currentSteering else v.wheels[i].steer)
            && w[i].roll == v.wheels[i].roll + Mul(fs * 2.0, dt))
    ensures r.1 == Commands(Actuate(v.config, input, body, m))
  {
    var dt := EffectiveDt(deltaTime);
    var steering := Steer(v.currentSteering, input.steering * v.config.steering, deltaTime);
    var fs := Dot(body.linvel, Forward(m, body.rotation));
    var next := v.(wheels := TurnWheels(v.wheels, steering, Mul(fs * 2.0, dt)), position := body.translation, orientation := body.rotation,
                   currentSpeed := Length(m, body.linvel), currentSteering := steering);
    (next, Commands(Actuate(v.config, input, body, m)))
  }

  /** Throttle pushes the car along its forward direction. */
  lemma ThrottlePushesForward(c: VehicleConfig, input: InputController.Controls, body: BodyReading, m: Maths)
    requires c.acceleration > 0.0 && input.throttle > 0.0
    requires LengthSq(Forward(m, body.rotation)) > 0.0
    ensures var a := Actuate(c, input, body, m);
      a.drive.Some? && Dot(a.drive.value, Forward(m, body.rotation)) > 0.0
  {
    var fwd := Forward(m, body.rotation);
    assert Actuate(c, input, body, m).drive == Drive(c, input, fwd);
    DotScaleSelf(fwd, c.acceleration * input.throttle);
    MulPositive(c.acceleration, input.throttle);
    MulPositive(c.acceleration * input.throttle, LengthSq(fwd));
  }

  /** The brake pedal always pushes backwards: as a brake while the car rolls
      forward faster than 0.5, as a reverse drive otherwise. */
  lemma BrakePushesBackward(c: VehicleConfig, input: InputController.Controls, body: BodyReading, m: Maths)
    requires c.acceleration > 0.0 && c.braking > 0.0 && input.brake > 0.0
    requires LengthSq(Forward(m, body.rotation)) > 0.0
    ensures var a := Actuate(c, input, body, m);
      a.brake.Some? && Dot(a.brake.value, Forward(m, body.rotation)) < 0.0
  {
    var fwd := Forward(m, body.rotation);
    assert Actuate(c, input, body, m).brake == Brake(c, input, fwd, Dot(body.linvel, fwd));
    BrakeAgainst(c, input, fwd, Dot(body.linvel, fwd));
  }

  lemma BrakeAgainst(c: VehicleConfig, input: InputController.Controls, fwd: Vec3, fs: real)
    requires c.acceleration > 0.0 && c.braking > 0.0 && input.brake > 0.0
    requires LengthSq(fwd) > 0.0
    ensures Brake(c, input, fwd, fs).Some? && Dot(Brake(c, input, fwd, fs).value, fwd) < 0.0
  {
    if fs > 0.5 {
      NegatedProduct(c.braking, input.brake, 1.0);
      PushesAgainst(fwd, -c.braking * input.brake);
    } else {
      NegatedProduct(c.acceleration, 0.5, input.brake);
      PushesAgainst(fwd, -c.acceleration * 0.5 * input.brake);
    }
  }

  lemma NegatedProduct(a: real, b: real, d: real)
    requires a > 0.0 && b > 0.0 && d > 0.0
    ensures -a * b < 0.0 && -a * b * d < 0.0
  {
    MulPositive(a, b);
    assert -a * b == -Mul(a, b);
    MulPositive(Mul(a, b), d);
    assert -a * b * d == -Mul(Mul(a, b), d);
  }

  /** A force along `k` times a non-zero direction, `k` negative, points
      against that direction. */
  lemma PushesAgainst(fwd: Vec3, k: real)
    requires k < 0.0 && LengthSq(fwd) > 0.0
    ensures Dot(Scale(fwd, k), fwd) < 0.0
  {
    DotScaleSelf(fwd, k);
    MulNegative(k, LengthSq(fwd));
  }

  /** The grip force acts against the sideways slip: it points to the left
      while the car slides right, to the right while it slides left, and
      vanishes without slip. */
  lemma GripOpposesSlip(c: VehicleConfig, input: InputController.Controls, body: BodyReading, m: Maths)
    requires LengthSq(Right(m, body.rotation)) > 0.0
    ensures var a := Actuate(c, input, body, m);
      var right := Right(m, body.rotation);
      var slip := Dot(body.linvel, right);
      a.grip.Some? ==>
        && (slip > 0.0 ==> Dot(a.grip.value, right) < 0.0)
        && (slip < 0.0 ==> Dot(a.grip.value, right) > 0.0)
        && (slip == 0.0 ==> a.grip.value == Zero)
  {
    var a := Actuate(c, input, body, m);
    var right := Right(m, body.rotation);
    var slip := Dot(body.linvel, right);
    if a.grip.Some? {
      var k := -slip * 50.0;
      DotScaleSelf(right, k);
      if slip > 0.0 {
        MulNegative(k, LengthSq(right));
      } else if slip < 0.0 {
        MulPositive(k, LengthSq(right));
      }
    }
  }

  /** The steering torque turns the car the way the wheel is turned. */
  lemma TorqueFollowsSteering(c: VehicleConfig, input: InputController.Controls, body: BodyReading, m: Maths)
    ensures var a := Actuate(c, input, body, m);
      a.torque.Some? ==>
        && a.torque.value.x == 0.0 && a.torque.value.z == 0.0
        && (a.torque.value.y > 0.0 <==> input.steering > 0.0)
        && (a.torque.value.y < 0.0 <==> input.steering < 0.0)
  {
    var a := Actuate(c, input, body, m);
    if a.torque.Some? {
      var fs := Abs(Dot(body.linvel, Forward(m, body.rotation)));
      var k := fs * 100.0;
      assert k > 0.0;
      assert a.torque.value.y == input.steering * k;
      if input.steering > 0.0 {
        MulPositive(input.steering, k);
      } else if input.steering < 0.0 {
        MulNegative(input.steering, k);
      }
    }
  }

  /** Above the top speed the horizontal velocity is cut back to the top
      speed (the vertical component is kept); at or below it the velocity is
      left alone. */
  lemma SpeedLimited(c: VehicleConfig, input: InputController.Controls, body: BodyReading, m: Maths)
    requires c.maxSpeed >= 0.0
    requires RootOf(m, LengthSq(body.linvel))
    ensures var a := Actuate(c, input, body, m);
      && (a.limit.None? ==> Length(m, body.linvel) <= c.maxSpeed)
      && (a.limit.Some? ==>
            && a.limit.value.y == body.linvel.y
            && Sq(a.limit.value.x) + Sq(a.limit.value.z) <= Sq(c.maxSpeed))
  {
    var a := Actuate(c, input, body, m);
    var v := body.linvel;
    if a.limit.Some? {
      if LengthSq(v) == 0.0 {
        RootOfZero(m);
        assert false;
      }
      NormalizeUnit(m, v);
      var n := Normalize(m, v);
      var limited := Scale(n, c.maxSpeed);
      LengthSqScale(n, c.maxSpeed);
      assert LengthSq(limited) == Sq(c.maxSpeed);
      assert a.limit.value == Vec3(limited.x, v.y, limited.z);
    }
  }

  /** The blend factor a frame of length `deltaTime` gives the steering. */
  function SteerBlend(deltaTime: real): (t: real)
    ensures deltaTime >= 0.0 ==> 0.0 <= t <= MaxFrameTime * SteeringRate
  {
    EffectiveDt(deltaTime) * SteeringRate
  }

  /** The wheel angle after one frame: it blends towards the target angle
      by eight times the (capped) frame time. */
  function Steer(current: real, target: real, deltaTime: real): (r: real)
    ensures r - target == Mul(1.0 - SteerBlend(deltaTime), current - target)
  {
    LerpStep(current, target, SteerBlend(deltaTime));
    MathLerp(current, target, SteerBlend(deltaTime))
  }

  /** The steering angle after a run of frames with the same target. */
  function SteerAfter(current: real, target: real, dts: seq<real>): real
    decreases |dts|
  {
    if |dts| == 0 then current
    else SteerAfter(Steer(current, target, dts[0]), target, dts[1..])
  }

  /** The factor by which a run of frames shrinks the distance to the target. */
  function Contraction(dts: seq<real>): real
    decreases |dts|
  {
    if |dts| == 0 then 1.0 else Mul(1.0 - SteerBlend(dts[0]), Contraction(dts[1..]))
  }

  /** One frame closes the distance to the target by the factor `1 - t`. */
  lemma LerpStep(current: real, target: real, t: real)
    ensures MathLerp(current, target, t) - target == Mul(1.0 - t, current - target)
  {
  }

  /** Holding the steering input, the wheel angle approaches the target
      geometrically: the remaining distance is the initial one times a
      factor in (0, 1], so it never overshoots and never moves away. */
  lemma {:induction false} SteeringConverges(current: real, target: real, dts: seq<real>)
    requires forall i :: 0 <= i < |dts| ==> dts[i] >= 0.0
    ensures SteerAfter(current, target, dts) - target == Mul(Contraction(dts), current - target)
    ensures 0.0 < Contraction(dts) <= 1.0
    decreases |dts|
  {
    if |dts| > 0 {
      var next := Steer(current, target, dts[0]);
      var f := 1.0 - SteerBlend(dts[0]);
      var rest := Contraction(dts[1..]);
      assert SteerAfter(current, target, dts) == SteerAfter(next, target, dts[1..]);
      assert Contraction(dts) == Mul(f, rest);
      SteeringConverges(next, target, dts[1..]);
      LerpStep(current, target, SteerBlend(dts[0]));
      MulAssoc(rest, f, current - target);
      MulPositive(f, rest);
      MulMonotone(f, rest, 1.0);
      MulMonotone(1.0, f, 1.0);
    }
  }

  /** With the input in [-1, 1] the wheel angle never leaves
      [-steering, steering] once it starts there. */
  lemma SteeringStaysInRange(current: real, input: real, k: real, deltaTime: real)
    requires deltaTime >= 0.0 && k >= 0.0
    requires -k <= current <= k
    requires -1.0 <= input <= 1.0
    ensures -k <= Steer(current, input * k, deltaTime) <= k
  {
    var t := SteerBlend(deltaTime);
    var target := input * k;
    MulMonotone(k, input, 1.0);
    MulMonotone(k, -1.0, input);
    assert Mul(k, input) == target && Mul(k, 1.0) == k && Mul(k, -1.0) == -k;
    MulMonotone(1.0 - t, current, k);
    MulMonotone(1.0 - t, -k, current);
    MulMonotone(t, target, k);
    MulMonotone(t, -k, target);
    assert Steer(current, target, deltaTime) == Mul(1.0 - t, current) + Mul(t, target);
    assert Mul(1.0 - t, k) + Mul(t, k) == k;
    assert Mul(1.0 - t, -k) + Mul(t, -k) == -k;
  }

  /** One frame moves the wheel angle to a point between its current value
      and the target, so it never overshoots. */
  lemma SteerBetween(current: real, target: real, deltaTime: real)
    requires deltaTime >= 0.0
    ensures current <= target ==> current <= Steer(current, target, deltaTime) <= target
    ensures target <= current ==> target <= Steer(current, target, deltaTime) <= current
  {
    var t := SteerBlend(deltaTime);
    LerpStep(current, target, t);
    if current <= target {
      MulMonotone(1.0 - t, current - target, 0.0);
      MulMonotone(1.0 - t, 0.0, target - current);
      MulMonotone(t, current - target, 0.0);
      assert Mul(1.0 - t, current - target) >= current - target by {
        assert Mul(1.0 - t, current - target) == (current - target) - Mul(t, current - target);
      }
    } else {
      MulMonotone(1.0 - t, 0.0, current - target);
      MulMonotone(t, 0.0, current - target);
      assert Mul(1.0 - t, current - target) <= current - target by {
        assert Mul(1.0 - t, current - target) == (current - target) - Mul(t, current - target);
      }
    }
  }

  /** Driven from the keyboard, the wheel angle stays within the configured
      maximum on either side, frame after frame. */
  lemma KeyboardSteeringInRange(v: Vehicle, deltaTime: real, k: InputController.KeyMap, body: BodyReading, m: Maths)
    requires deltaTime >= 0.0 && v.config.steering >= 0.0
    requires -v.config.steering <= v.currentSteering <= v.config.steering
    ensures var s := Update(v, deltaTime, InputController.GetInput(k), body, m).0.currentSteering;
      -v.config.steering <= s <= v.config.steering
  {
    InputController.InputRanges(k);
    SteeringStaysInRange(v.currentSteering, InputController.GetInput(k).steering, v.config.steering, deltaTime);
  }
}

=== FILE: wrappers.dfy ===
/** Wrappers used across the model: `Option` stands for the source's
    optional (possibly `undefined`/`null`) fields and absent keys, `Result`
    for calls that can throw. */
module Wrappers {

  datatype Option<+T> = None | Some(value: T) {

    /** The wrapped value, or `default` when there is none (the `x || d` idiom). */
    function GetOr(default: T): (r: T)
      ensures Some? ==> r == value
      ensures None? ==> r == default
    {
      match this
      case Some(v) => v
      case None => default
    }
  }

  datatype Result<+R, +E> = Success(value: R) | Failure(error: E)
}
